=== FILE: README.md ===
# Attendance and membership rules of the musical team workspace

A Dafny model of the rules a choir/band team workspace applies when a signed-in
musician opens the app, joins or creates a team, and declares attendance for
upcoming rehearsals and services. Each handler of the React front end becomes
a pure function from a record store (`Types.Db`, one sequence per collection)
and the handler's inputs to the store after its writes and the component state
after its updates. The store's list queries return rows in insertion order; a
`where` clause is `Seqs.Filter`, `orderBy` is a stable sort (`Seqs.SortBy`), and
`limit` is `Seqs.Take`.

Modules, following the program's structure:

- `Types`: the records of `src/types/index.ts` plus the store (`Db`). The store
  keeps `teamMembers` (the snake_case `team_members` collection that onboarding
  writes, with no active flag) apart from `teamMemberships` (the collection the
  shell reads, whose `isActive` is compared with the string `"1"`).
- `Text`: JavaScript `trim` (ECMAScript white space and line terminators),
  `toUpperCase` on ASCII letters, and the `x || null` idiom.
- `Seqs`: filter, find-first, limit, stable sort, subsequence.
- `Roles`: `canManageTeam` and the tabs it gates.
- `Schedule`: the dashboard's upcoming window, as written and as intended.
- `Presence`: the presence ledger and its upsert.
- `Dashboard`: `loadDashboardData` and `updatePresence`.
- `Onboarding`: `handleCreateTeam` and `handleJoinTeam`.
- `Session`: `loadUserData`, `handleOnboardingComplete`, `handleTeamChange` and
  the render branch of `App`.

Instants are `(day, minute)` pairs ordered lexicographically, and `now` is a
parameter. Identifiers that the program generates are inputs (`freshId`,
`FreshIds`). A store call that throws is an input as well (`Onboarding.Fault`),
naming the failing step.

Behaviour of the code that a reader might not expect, modelled as written:

- A failed team creation is not compensated: the organization and team rows
  written before the failing insert stay (`Onboarding.FailedMembershipLeavesTeam`).
- A join is refused when the pair has any `team_members` row. The rows
  onboarding writes carry no active flag, so there is no inactive row to
  reactivate.
- The dashboard's fetch is ordered by date alone, not by date and start time,
  and it takes the team's ten earliest assignments before dropping the past
  ones (`Dashboard.LoadDashboard`). The handler with the window it evidently
  means is modelled beside it (`Dashboard.LoadNextUpcoming`); see "## Findings".
- Onboarding writes `team_members`, but the shell reads `teamMemberships` and
  `userProfiles`, which onboarding never writes. So completing onboarding sends
  a user who lacked a profile or an active membership back to onboarding
  (`Session.OnboardingLeavesSessionStoresAlone`).

## Model

| member | source | states |
|---|---|---|
| Roles.CanManageTeam | src/components/dashboard/Dashboard.tsx:161 | management rights hold exactly for `super_admin` and `team_admin`, i.e. for the roles ranked at or above team admin |
| Roles.VisibleTabs | src/components/dashboard/Dashboard.tsx:259-262 | the assignments tab is always first; the management tab is shown exactly when the role can manage the team |
| Schedule.MinutesOrder | src/components/dashboard/Dashboard.tsx:47-48 | comparing date-times agrees with comparing minutes since day zero |
| Schedule.TeamAssignments | src/components/dashboard/Dashboard.tsx:38-39 | the query keeps exactly the stored assignments of the team, in store order |
| Schedule.FetchPage | src/components/dashboard/Dashboard.tsx:38-42 | the fetched page has at most ten rows and is ascending by date |
| Schedule.FetchPageIsEarliest | src/components/dashboard/Dashboard.tsx:38-42 | the page holds only team assignments from the store, as many as the team has up to ten, and no team assignment left off is dated before one kept |
| Schedule.UpcomingWindow | src/components/dashboard/Dashboard.tsx:44-49 | as written: at most ten; an order-preserving subsequence of the page; every kept row starts at or after now, and every dropped page row starts before now |
| Schedule.PastAssignmentsFillWindow | src/components/dashboard/Dashboard.tsx:38-49 | as written: once ten team assignments lie on days before today, the window is empty, whatever is scheduled later |
| Schedule.NextUpcoming | src/components/dashboard/Dashboard.tsx:37-49 | the intended window: at most ten rows, ascending by date and start time |
| Schedule.NextUpcomingIsSound | src/components/dashboard/Dashboard.tsx:37-49 | the intended window shows only stored assignments of the team that start at or after now |
| Schedule.NextUpcomingIsComplete | src/components/dashboard/Dashboard.tsx:37-49 | an upcoming team assignment is left out only when ten that start no later than it fill the window, so the window is never empty while one exists |
| Schedule.WindowHidesUpcoming | src/components/dashboard/Dashboard.tsx:38-49 | with ten past team assignments and one upcoming, the as-written window is empty while the intended one is not |
| Presence.ListForUser | src/components/dashboard/Dashboard.tsx:56-63 | the reload returns exactly the user's rows for the listed assignments, in store order |
| Presence.StatusFor | src/components/dashboard/Dashboard.tsx:137-139 | the first loaded row for the assignment, and none exactly when no loaded row matches |
| Presence.Declare | src/components/dashboard/Dashboard.tsx:84-109 | with a loaded row, that row is updated in place (status, declarer, time, empty justification stored as null), override fields and keys stay, every other row is unchanged and nothing is created; without one, exactly one row for (assignment, user) is appended, declared by the user at the given time, with no override flag, overrider or override time |
| Presence.CountForPositive | src/components/dashboard/Dashboard.tsx:87 | a key has a row exactly when its count is positive |
| Presence.TwoRowsCountTwice | src/components/dashboard/Dashboard.tsx:87 | two distinct positions holding the same key make its count at least two |
| Presence.DeclareUpdatesTheRow | src/components/dashboard/Dashboard.tsx:87-96 | updating the key's only row leaves it the only row, with the declared status |
| Presence.DeclareCreatesTheRow | src/components/dashboard/Dashboard.tsx:97-108 | creating for a key with no row leaves exactly one row, with the declared status |
| Presence.DeclareKeepsOtherKeys | src/components/dashboard/Dashboard.tsx:84-109 | a declaration changes the row count of no other (assignment, user) key |
| Presence.UndeclaredIsDistinct | src/components/dashboard/Dashboard.tsx:318-346 | no row shows no label and highlights no button, unlike every declared status, `absent` included; a declared row highlights its own button alone |
| Dashboard.LoadDashboard | src/components/dashboard/Dashboard.tsx:34-76 | as written: loading ends; the list is the page-then-filter window, so at most ten team assignments from now on; presences are re-queried and synchronised when the list is non-empty, and left as they were otherwise |
| Dashboard.LoadNextUpcoming | src/components/dashboard/Dashboard.tsx:34-76 | corrected: the same handler over the team's next ten assignments from now, with the same presence behaviour |
| Dashboard.LoadHidesUpcoming | src/components/dashboard/Dashboard.tsx:38-54 | with ten past team assignments and one to come, the handler as written lists nothing and skips the presence query, while the corrected one lists the coming assignment with synchronised presences |
| Dashboard.UpdatePresence | src/components/dashboard/Dashboard.tsx:84-121 | the presences collection receives exactly the upsert of `Presence.Declare` and nothing else is written; the displayed assignments stay and the loaded presences are synchronised with the store afterwards |
| Dashboard.DeclareKeepsOneRecord | src/components/dashboard/Dashboard.tsx:84-121 | from a synchronised view, declaring for a displayed assignment whose key has at most one row leaves exactly one row, holding the declared status |
| Dashboard.DeclaringTwiceKeepsLatest | src/components/dashboard/Dashboard.tsx:84-121 | two declarations in a row leave one row for the key, holding the second status |
| Dashboard.DeclarePreservesUniqueLedger | src/components/dashboard/Dashboard.tsx:84-121 | if every (assignment, user) key has at most one row, it still has after a declaration from a synchronised view |
| Text.TrimStart | src/components/onboarding/OnboardingFlow.tsx:34 | drops exactly a leading run of white space |
| Text.TrimEnd | src/components/onboarding/OnboardingFlow.tsx:34 | drops exactly a trailing run of white space |
| Text.Trim | src/components/onboarding/OnboardingFlow.tsx:34 | the input is the result with white space on both sides, and the result has none at either end |
| Text.TrimOfPadded | src/components/onboarding/OnboardingFlow.tsx:107 | trimming white-space padding around a bare string gives back that string |
| Text.TrimIdempotent | src/components/onboarding/OnboardingFlow.tsx:59 | trimming twice is trimming once |
| Text.ToUpper | src/components/onboarding/OnboardingFlow.tsx:107 | upper-casing (here and in the code field at line 310) keeps the length and maps each character on its own, ASCII lower-case letters to upper case and every other character to itself |
| Text.ToUpperIsUpper | src/components/onboarding/OnboardingFlow.tsx:107 | the result holds no lower-case ASCII letter |
| Text.ToUpperIdempotent | src/components/onboarding/OnboardingFlow.tsx:310 | upper-casing an upper-cased string changes nothing |
| Text.ToUpperAppend | src/components/onboarding/OnboardingFlow.tsx:310 | upper-casing distributes over concatenation |
| Text.ToUpperKeepsSpacing | src/components/onboarding/OnboardingFlow.tsx:107 | upper-casing keeps white space where it was and keeps a string bare or padded |
| Text.TrimToUpperCommute | src/components/onboarding/OnboardingFlow.tsx:107 | trimming and upper-casing commute |
| Text.OrNull | src/components/dashboard/Dashboard.tsx:93 | `x \|\| null` is null exactly for a missing or empty string and the string itself otherwise |
| Onboarding.TrimmedDescription | src/components/onboarding/OnboardingFlow.tsx:60 | the stored description is present exactly when the trimmed input is non-empty, and then it is that trimmed input |
| Onboarding.RunPlan | src/components/onboarding/OnboardingFlow.tsx:44-89 | the issued calls are a prefix of the plan; an insert that throws ends the run there, and the store reflects every issued call but that last one; without a throw the whole plan is issued and the store reflects all of it |
| Onboarding.CreateTeam | src/components/onboarding/OnboardingFlow.tsx:32-90 | a blank name is refused with no call; otherwise organization, team and `team_admin` membership are inserted in that order, linked by the new ids, the organization named after the creator, the team with the trimmed name, the trimmed-or-null description and the new invitation code; a failing step leaves the earlier inserts in place, and failure happens exactly when a step throws |
| Onboarding.CreateTouchesOnlyOnboardingTables | src/components/onboarding/OnboardingFlow.tsx:49-72 | a creation writes no profile, membership, assignment or presence, and adds to `team_members` only the creator's row, and only on success |
| Onboarding.CreatePreservesUniqueMembers | src/components/onboarding/OnboardingFlow.tsx:66-72 | with a new team id, a creation keeps at most one `team_members` row per (team, user) |
| Onboarding.FailedMembershipLeavesTeam | src/components/onboarding/OnboardingFlow.tsx:66-89 | when the membership insert throws, the organization and team stay and `team_members` is unchanged, so a new team id is left with no membership row |
| Onboarding.MemberCountAppend | src/components/onboarding/OnboardingFlow.tsx:141-146 | appending a row adds one to its own pair's count and nothing to any other |
| Onboarding.HasMembershipCount | src/components/onboarding/OnboardingFlow.tsx:131 | the membership query finds a row exactly when the pair's count is positive |
| Onboarding.LookupKey | src/components/onboarding/OnboardingFlow.tsx:107 | the key is the trimmed code with each character upper-cased: no surrounding white space, no lower-case letter, and empty exactly when the typed code is blank |
| Onboarding.EditCodeField | src/components/onboarding/OnboardingFlow.tsx:307-313 | the field holds the first eight typed characters (all of them when fewer), each upper-cased |
| Onboarding.EditCodeFieldKeepsKey | src/components/onboarding/OnboardingFlow.tsx:310 | upper-casing while typing never changes the key the join looks up |
| Onboarding.FindTeam | src/components/onboarding/OnboardingFlow.tsx:106-109 | finds the first stored team with the code, and none exactly when no team has it |
| Onboarding.JoinTeam | src/components/onboarding/OnboardingFlow.tsx:92-146 | a blank code is refused with no call; an unknown code is refused after the lookup alone; a pair with any membership row is refused; otherwise exactly one `member` row is added for the found team; every refusal writes nothing |
| Onboarding.Enrol | src/components/onboarding/OnboardingFlow.tsx:120-146 | after the lookup: refused exactly when the pair has a row, else one `member` row for the found team is added |
| Onboarding.JoinNeverDuplicates | src/components/onboarding/OnboardingFlow.tsx:122-146 | a join leaves every pair's count unchanged, except that a pair with no row may get exactly one |
| Onboarding.JoinPreservesUniqueMembers | src/components/onboarding/OnboardingFlow.tsx:122-146 | if every pair has at most one `team_members` row, it still has after a join |
| Onboarding.JoinMatchesAnyCaseAndPadding | src/components/onboarding/OnboardingFlow.tsx:106-109 | for a code no other stored team holds, any input whose upper-casing is that code, padded with white space, reaches the team: it joins, or is refused exactly when the pair already has a row |
| Session.ProfilesOf | src/App.tsx:22-24 | the profiles query returns exactly the user's profiles |
| Session.ActiveMemberships | src/App.tsx:35-42 | the memberships query returns exactly the user's rows whose `isActive` is `"1"` |
| Session.RoleFor | src/App.tsx:58 | a role is found exactly when some membership names the team, and it is the role of the first such membership |
| Session.WithRoles | src/App.tsx:57-63 | one entry per fetched team, in order, each carrying the role of its first membership |
| Session.WithRolesSound | src/App.tsx:57-63 | every entry pairs a fetched team with the role of its first membership |
| Session.WithRolesComplete | src/App.tsx:57-63 | every fetched team has its entry |
| Session.TeamsWithRoles | src/App.tsx:50-63 | entries pair only stored teams with their first membership's role, and every stored team a membership points at has its entry |
| Session.LoadUserData | src/App.tsx:19-82 | loading ends; onboarding is required exactly when there is no profile or no active membership, or it already was; without a profile nothing else is loaded, and with one the first profile is kept; without an active membership teams and current team stay; otherwise teams are the teams with roles and the first becomes current |
| Session.LoadReadsOnlyActiveMemberships | src/App.tsx:35-42 | two stores that agree on the user's profiles, the user's active memberships and the teams load the same state |
| Session.ClearOnboarding | src/App.tsx:96-97 | the state while the reload is pending: the onboarding flag is cleared and nothing else changes |
| Session.CompleteOnboardingInterim | src/App.tsx:110-147 | while the reload is pending the shell shows the loading screen only if it was already loading, otherwise the previous team's dashboard or the no-team screen |
| Session.CompleteOnboarding | src/App.tsx:96-101 | once the reload has resolved: the flag is cleared and, when a user is signed in, the data reload decides again: loading ends and onboarding is required exactly when the user still lacks a profile or an active membership; with no user only the flag changes |
| Session.ChangeTeam | src/App.tsx:103-108 | only the current team can change, and it becomes the first loaded entry with the id when one exists; an unknown id changes nothing |
| Session.Render | src/App.tsx:110-148 | the loading screen comes first, then onboarding, then the dashboard of the current team, and the no-team screen last |
| Session.LoadReachesDashboard | src/App.tsx:65-70 | a user with a profile and an active membership of a stored team lands on the dashboard of a stored team they hold an active membership in |
| Session.OnboardingLeavesSessionStoresAlone | src/App.tsx:96-101 | a user sent to onboarding for want of a profile or an active membership is sent there again after creating or joining a team |
| Seqs.Filter | src/components/dashboard/Dashboard.tsx:44-49 | the result holds exactly the elements satisfying the predicate, in their original order |
| Seqs.FindIndex | src/components/dashboard/Dashboard.tsx:138 | the first position whose element matches, and none exactly when no element matches |
| Seqs.SortBy | src/components/dashboard/Dashboard.tsx:40 | a permutation of the input, ascending by the key |
| Seqs.TakeSortedIsLeast | src/components/dashboard/Dashboard.tsx:40-41 | the first `n` after sorting are input elements, as many as there are up to `n`, and none left out has a smaller key than one kept |

## Left out

- Rendering, toasts, icons, styling, the date label (`getDateLabel`) and the role and badge display mappings: display only.
- The record-store and authentication SDK: the store is a value, and the authentication subscription, sign-in and sign-out are not modelled.
- Id and invitation-code generation, and the `presence_${Date.now()}` id: their source is not part of this model. Ids are inputs assumed fresh where a lemma needs it.
- Date and time parsing: instants are `(day, minute)` pairs. Invalid date strings and time zones are not modelled, and `now` has minute resolution.
- Store failures other than those of the team-creation inserts. The catch branches of the dashboard load, the presence update, the join and the user-data load (toast, `loading` cleared) are not modelled.
- Presence.UpdateById: an update by an id the store does not hold changes nothing here. What the store would do in that case is not part of this model.
- Text.ToUpper: upper-cases ASCII letters only. JavaScript's full Unicode case mapping is not modelled.
- Onboarding.LookupKey: the stored codes are compared as given. The store's own collation is not part of this model.
- Races between concurrent joins or declarations: every call is sequential here, so check-then-write is atomic.
- Admin override, assignment creation, recurrence expansion and `src/contexts/TeamContext.tsx`: no shown code implements them.
- Seqs.SortBy: rows with equal dates keep store order. The store's tie order for `orderBy` is not part of this model.
- The `onComplete` callback after a successful create or join is the separate step `Session.CompleteOnboarding`.
- Session.CompleteOnboarding: gives the state after the reload has resolved. The state in between is `Session.ClearOnboarding`, and `Session.CompleteOnboardingInterim` states what it renders. The no-team button (src/App.tsx:141) triggers the same handler. What the user does while the reload is pending, and reloads that resolve out of order, are not modelled.

## Findings

| source | as written | input that shows it | evidently intended | confidence | as-written member | corrected member |
|---|---|---|---|---|---|---|
| src/components/dashboard/Dashboard.tsx:38-49 | the page is the ten OLDEST team assignments by date, and only then filtered to those from now on | a team with ten assignments on past days and one tomorrow: the page is the ten past ones and the dashboard lists nothing, forever | the team's next ten assignments from now, by date and start time: the code comments the fetch as loading upcoming assignments (line 37) and titles the list "Prochaines assignations", the next assignments (lines 202 and 267) | not executed; high that the list stays empty, medium that it is unintended | Dashboard.LoadDashboard | Dashboard.LoadNextUpcoming |

=== FILE: dashboard.dfy ===
/**
 The dashboard's state and its two handlers: loading the upcoming window
 with the user's presences, and declaring a presence from a status button.
 */
module Dashboard {
  import opened Wrappers
  import opened Types
  import opened Seqs
  import opened Text
  import opened Schedule
  import opened Presence

  /** The component's `assignments`, `presences` and `loading` state. */
  datatype DashboardState = DashboardState(assignments: seq<Assignment>, presences: seq<PresenceRow>, loading: bool)

  /** A handler's effect: the store after its writes and the component state after its updates. */
  datatype Step = Step(db: Db, view: DashboardState)

  /** The loaded presences are exactly the store's rows for the user and the listed assignments. */
  predicate Synced(st: DashboardState, db: Db, user: Id) {
    st.presences == ListForUser(db.presences, user, IdsOf(st.assignments))
  }

  /**
   `loadDashboardData` as written: the window is the team's first ten
   assignments by date with the past ones dropped afterwards (see
   `Schedule.UpcomingWindow`). The user's presences are re-queried only when
   the window is non-empty; otherwise the previous presence list stays.
   */
  function LoadDashboard(st: DashboardState, db: Db, team: Id, user: Id, now: Instant): (r: DashboardState)
    ensures !r.loading
    ensures r.assignments == UpcomingWindow(db.assignments, team, now)
    ensures |r.assignments| <= FetchLimit
    ensures forall a :: a in r.assignments ==> a in db.assignments && a.teamId == team && !Before(StartOf(a), now)
    ensures r.assignments == [] ==> r.presences == st.presences
    ensures r.assignments != [] ==> Synced(r, db, user)
  {
    FetchPageIsEarliest(db.assignments, team);
    var upcoming := UpcomingWindow(db.assignments, team, now);
    var presences := if upcoming != [] then ListForUser(db.presences, user, IdsOf(upcoming)) else st.presences;
    DashboardState(upcoming, presences, false)
  }

  /**
   The same handler over the window it evidently means to show: the team's
   next ten assignments from `now`, by date and start time (see
   `Schedule.NextUpcoming`).
   */
  function LoadNextUpcoming(st: DashboardState, db: Db, team: Id, user: Id, now: Instant): (r: DashboardState)
    ensures !r.loading
    ensures r.assignments == NextUpcoming(db.assignments, team, now)
    ensures |r.assignments| <= FetchLimit
    ensures forall a :: a in r.assignments ==> a in db.assignments && a.teamId == team && !Before(StartOf(a), now)
    ensures r.assignments == [] ==> r.presences == st.presences
    ensures r.assignments != [] ==> Synced(r, db, user)
  {
    NextUpcomingIsSound(db.assignments, team, now);
    var upcoming := NextUpcoming(db.assignments, team, now);
    var presences := if upcoming != [] then ListForUser(db.presences, user, IdsOf(upcoming)) else st.presences;
    DashboardState(upcoming, presences, false)
  }

  /**
   With ten team assignments on days before today and one still to come, the
   handler as written shows nothing and keeps the stale presence list, while
   the intended handler shows the coming assignment with its presences.
   */
  lemma LoadHidesUpcoming(st: DashboardState, db: Db, team: Id, user: Id, now: Instant, b: Assignment)
    requires CountDatedBefore(TeamAssignments(db.assignments, team), now.day) >= FetchLimit
    requires b in db.assignments && b.teamId == team && !Before(StartOf(b), now)
    ensures LoadDashboard(st, db, team, user, now).assignments == []
    ensures LoadDashboard(st, db, team, user, now).presences == st.presences
    ensures LoadNextUpcoming(st, db, team, user, now).assignments != []
    ensures Synced(LoadNextUpcoming(st, db, team, user, now), db, user)
  {
    WindowHidesUpcoming(db.assignments, team, now, b);
  }

  /**
   `updatePresence`: the upsert against the loaded list, then the reload of
   the user's presences for the displayed assignments. Only the presences
   collection is written.
   */
  function UpdatePresence(st: DashboardState, db: Db, user: Id, assignment: Id, status: PresenceStatus,
                          justification: Option<string>, at: Stamp, freshId: Id): (r: Step)
    ensures r.db == db.(presences := r.db.presences)
    ensures r.db.presences == Declare(db.presences, st.presences, user, assignment, status, justification, at, freshId)
    ensures r.view.assignments == st.assignments && r.view.loading == st.loading
    ensures Synced(r.view, r.db, user)
  {
    var presences := Declare(db.presences, st.presences, user, assignment, status, justification, at, freshId);
    var db' := db.(presences := presences);
    Step(db', st.(presences := ListForUser(presences, user, IdsOf(st.assignments))))
  }

  /**
   From a synchronised view, declaring for a displayed assignment whose key
   has at most one row leaves exactly one row for (assignment, user), and it
   holds the declared status.
   */
  lemma {:induction false} DeclareKeepsOneRecord(st: DashboardState, db: Db, user: Id, assignment: Id,
                                                 status: PresenceStatus, justification: Option<string>, at: Stamp, freshId: Id)
    requires Synced(st, db, user)
    requires assignment in IdsOf(st.assignments)
    requires CountFor(db.presences, assignment, user) <= 1
    ensures var r := UpdatePresence(st, db, user, assignment, status, justification, at, freshId);
      && CountFor(r.db.presences, assignment, user) == 1
      && forall p :: p in r.db.presences && p.assignmentId == assignment && p.userId == user ==> p.status == status
  {
    var store := db.presences;
    assert UpdatePresence(st, db, user, assignment, status, justification, at, freshId).db.presences
        == Declare(store, st.presences, user, assignment, status, justification, at, freshId);
    match StatusFor(st.presences, assignment)
    case Some(target) =>
      assert target in store && target.userId == user && target.assignmentId == assignment;
      DeclareUpdatesTheRow(store, st.presences, user, assignment, status, justification, at, freshId);
    case None =>
      CountForPositive(store, assignment, user);
      DeclareCreatesTheRow(store, st.presences, user, assignment, status, justification, at, freshId);
  }

  /**
   Declaring twice in a row for a displayed assignment leaves one row for
   (assignment, user) holding the second status, because the handler reloads
   the presences after each write.
   */
  lemma {:induction false} DeclaringTwiceKeepsLatest(st: DashboardState, db: Db, user: Id, assignment: Id,
                                                     first: PresenceStatus, second: PresenceStatus,
                                                     at1: Stamp, at2: Stamp, id1: Id, id2: Id)
    requires Synced(st, db, user)
    requires assignment in IdsOf(st.assignments)
    requires CountFor(db.presences, assignment, user) <= 1
    ensures var once := UpdatePresence(st, db, user, assignment, first, None, at1, id1);
      var twice := UpdatePresence(once.view, once.db, user, assignment, second, None, at2, id2);
      && CountFor(twice.db.presences, assignment, user) == 1
      && forall p :: p in twice.db.presences && p.assignmentId == assignment && p.userId == user ==> p.status == second
  {
    var once := UpdatePresence(st, db, user, assignment, first, None, at1, id1);
    DeclareKeepsOneRecord(st, db, user, assignment, first, None, at1, id1);
    DeclareKeepsOneRecord(once.view, once.db, user, assignment, second, None, at2, id2);
  }

  /** At most one presence row per (assignment, user) pair. */
  ghost predicate UniqueLedger(store: seq<PresenceRow>) {
    forall a, u :: CountFor(store, a, u) <= 1
  }

  /** Declaring from a synchronised view keeps the ledger's key unique. */
  lemma {:induction false} DeclarePreservesUniqueLedger(st: DashboardState, db: Db, user: Id, assignment: Id,
                                                        status: PresenceStatus, justification: Option<string>, at: Stamp, freshId: Id)
    requires Synced(st, db, user)
    requires assignment in IdsOf(st.assignments)
    requires UniqueLedger(db.presences)
    ensures UniqueLedger(UpdatePresence(st, db, user, assignment, status, justification, at, freshId).db.presences)
  {
    var store := db.presences;
    var r := Declare(store, st.presences, user, assignment, status, justification, at, freshId);
    assert UpdatePresence(st, db, user, assignment, status, justification, at, freshId).db.presences == r;
    DeclareKeepsOneRecord(st, db, user, assignment, status, justification, at, freshId);
    forall a, u | a != assignment || u != user
      ensures CountFor(r, a, u) <= 1
    {
      DeclareKeepsOtherKeys(store, st.presences, user, assignment, status, justification, at, freshId, a, u);
    }
  }
}

=== FILE: onboarding.dfy ===
/**
 The onboarding handlers: creating a team (organization, team, then the
 creator's team_admin membership, with no compensation when a step fails)
 and joining one by invitation code.
 */
module Onboarding {
  import opened Wrappers
  import opened Types
  import opened Seqs
  import opened Text

  /** The create form's fields. */
  datatype CreateTeamForm = CreateTeamForm(name: string, description: Option<string>)

  /** The values the handler draws from generateId and generateInvitationCode. */
  datatype FreshIds = FreshIds(organizationId: Id, teamId: Id, memberId: Id, invitationCode: string)

  /** One call the handlers make on the record store. */
  datatype StoreCall =
    | InsertOrganization(organization: Organization)
    | InsertTeam(team: TeamRow)
    | InsertMember(member: MemberRow)
    | FindTeamByCode(code: string)
    | FindMembership(teamId: Id, userId: Id)

  /** Which insert of the create sequence throws, counting from 0, if any. */
  datatype Fault = NoFault | FailsAt(step: nat)

  datatype CreateOutcome = TeamCreated(teamId: Id) | NameRequired | CreateFailed

  datatype JoinOutcome = Joined(team: TeamRow) | CodeRequired | InvalidCode | AlreadyMember

  /** A handler's effect: the store after its writes, the calls it issued in order, and its outcome. */
  datatype Handled<O> = Handled(db: Db, calls: seq<StoreCall>, outcome: O)

  /** The store after one call; queries write nothing. */
  function Perform(db: Db, call: StoreCall): Db {
    match call
    case InsertOrganization(o) => db.(organizations := db.organizations + [o])
    case InsertTeam(t) => db.(teams := db.teams + [t])
    case InsertMember(m) => db.(teamMembers := db.teamMembers + [m])
    case FindTeamByCode(_) => db
    case FindMembership(_, _) => db
  }

  /** The store after a sequence of calls that all succeed. */
  function PerformAll(db: Db, calls: seq<StoreCall>): Db
    decreases |calls|
  {
    if calls == [] then db else PerformAll(Perform(db, calls[0]), calls[1..])
  }

  /** The new organization is named after the creator: a fixed French prefix, then the display name. */
  function OrganizationName(user: User): string {
    "Organisation de " + user.displayName
  }

  /** The stored description: the trimmed text, or null when it is missing or blank. */
  function TrimmedDescription(d: Option<string>): (r: Option<string>)
    ensures r.Some? <==> d.Some? && Trim(d.value) != []
    ensures r.Some? ==> r.value == Trim(d.value)
  {
    match d
    case None => None
    case Some(s) => OrNull(Some(Trim(s)))
  }

  /** The organization a creation inserts. */
  function NewOrganization(user: User, ids: FreshIds): Organization {
    Organization(ids.organizationId, OrganizationName(user), user.id)
  }

  /** The team a creation inserts: trimmed name, trimmed-or-null description. */
  function NewTeam(user: User, form: CreateTeamForm, ids: FreshIds): TeamRow {
    TeamRow(ids.teamId, Trim(form.name), TrimmedDescription(form.description), ids.organizationId, ids.invitationCode, user.id)
  }

  /** The creator's membership a creation inserts. */
  function NewAdmin(user: User, ids: FreshIds): MemberRow {
    MemberRow(ids.memberId, ids.teamId, user.id, TeamAdmin)
  }

  /** The three inserts of a team creation, in the order the handler awaits them. */
  function CreatePlan(user: User, form: CreateTeamForm, ids: FreshIds): seq<StoreCall> {
    [InsertOrganization(NewOrganization(user, ids)), InsertTeam(NewTeam(user, form, ids)), InsertMember(NewAdmin(user, ids))]
  }

  /**
   Awaits the inserts of `plan` in order. The calls issued are always a
   prefix of the plan. An insert that throws ends the run at that insert:
   the store then reflects every issued call except the last. A run with no
   throwing insert issues the whole plan and the store reflects all of it.
   */
  function RunPlan<O>(db: Db, plan: seq<StoreCall>, fault: Fault, done: O, failed: O): (r: Handled<O>)
    ensures |r.calls| <= |plan| && r.calls == plan[..|r.calls|]
    ensures fault.FailsAt? && fault.step < |plan| ==>
      && r.outcome == failed
      && |r.calls| == fault.step + 1
      && r.db == PerformAll(db, r.calls[..|r.calls| - 1])
    ensures !(fault.FailsAt? && fault.step < |plan|) ==>
      r.outcome == done && r.calls == plan && r.db == PerformAll(db, r.calls)
  {
    if fault.FailsAt? && fault.step < |plan| then
      var calls := plan[..fault.step + 1];
      assert calls[..|calls| - 1] == plan[..fault.step];
      Handled(PerformAll(db, plan[..fault.step]), calls, failed)
    else
      Handled(PerformAll(db, plan), plan, done)
  }

  /** The store after each prefix of the create sequence. */
  lemma PerformPlanPrefixes(db: Db, o: Organization, t: TeamRow, m: MemberRow)
    ensures var plan := [InsertOrganization(o), InsertTeam(t), InsertMember(m)];
      && PerformAll(db, plan[..0]) == db
      && PerformAll(db, plan[..1]) == db.(organizations := db.organizations + [o])
      && PerformAll(db, plan[..2]) == db.(organizations := db.organizations + [o], teams := db.teams + [t])
      && PerformAll(db, plan) == db.(organizations := db.organizations + [o], teams := db.teams + [t], teamMembers := db.teamMembers + [m])
  {
    var plan := [InsertOrganization(o), InsertTeam(t), InsertMember(m)];
    var d1 := Perform(db, plan[0]);
    var d2 := Perform(d1, plan[1]);
    var d3 := Perform(d2, plan[2]);
    assert PerformAll(d1, []) == d1;
    assert plan[..1][1..] == [];
    assert PerformAll(db, plan[..1]) == d1;
    assert PerformAll(d2, []) == d2;
    assert plan[1..2][1..] == [];
    assert PerformAll(d1, plan[1..2]) == d2;
    assert plan[..2][1..] == plan[1..2];
    assert PerformAll(db, plan[..2]) == d2;
    assert PerformAll(d3, []) == d3;
    assert plan[2..][1..] == [];
    assert PerformAll(d2, plan[2..]) == d3;
    assert plan[1..][1..] == plan[2..];
    assert PerformAll(d1, plan[1..]) == d3;
  }

  /**
   `handleCreateTeam`. A name that is blank after trimming is refused before
   any store call. Otherwise the organization, the team and the creator's
   team_admin membership are inserted in that order; an insert that throws
   stops the sequence and the rows inserted before it stay.
   */
  function CreateTeam(db: Db, user: User, form: CreateTeamForm, ids: FreshIds, fault: Fault): (r: Handled<CreateOutcome>)
    ensures r.outcome == NameRequired <==> Trim(form.name) == []
    ensures r.outcome == NameRequired ==> r.db == db && r.calls == []
    ensures r.outcome.TeamCreated? ==>
      && |r.calls| == 3
      && r.calls[0].InsertOrganization? && r.calls[1].InsertTeam? && r.calls[2].InsertMember?
      && var o, t, m := r.calls[0].organization, r.calls[1].team, r.calls[2].member;
      && o.id == ids.organizationId && o.name == OrganizationName(user) && o.createdBy == user.id
      && t.id == r.outcome.teamId == ids.teamId && t.organizationId == o.id && t.createdBy == user.id
      && t.name == Trim(form.name) && t.name != [] && Bare(t.name)
      && t.description == TrimmedDescription(form.description)
      && (t.description.Some? ==> Bare(t.description.value) && t.description.value != [])
      && t.invitationCode == ids.invitationCode
      && m.id == ids.memberId && m.teamId == t.id && m.userId == user.id && m.role == TeamAdmin
      && r.db == db.(organizations := db.organizations + [o], teams := db.teams + [t], teamMembers := db.teamMembers + [m])
    ensures r.outcome == CreateFailed <==> Trim(form.name) != [] && fault.FailsAt? && fault.step < 3
    ensures r.outcome == CreateFailed ==>
      && |r.calls| == fault.step + 1
      && r.calls == CreatePlan(user, form, ids)[..fault.step + 1]
      && r.db == PerformAll(db, CreatePlan(user, form, ids)[..fault.step])
  {
    if Trim(form.name) == [] then Handled(db, [], NameRequired)
    else
      PerformPlanPrefixes(db, NewOrganization(user, ids), NewTeam(user, form, ids), NewAdmin(user, ids));
      RunPlan(db, CreatePlan(user, form, ids), fault, TeamCreated(ids.teamId), CreateFailed)
  }

  /** How many `team_members` rows the pair has. */
  function MemberCount(rows: seq<MemberRow>, team: Id, user: Id): (n: nat)
    ensures n <= |rows|
  {
    if rows == [] then 0
    else (if rows[0].teamId == team && rows[0].userId == user then 1 else 0) + MemberCount(rows[1..], team, user)
  }

  lemma {:induction false} MemberCountAppend(rows: seq<MemberRow>, m: MemberRow, team: Id, user: Id)
    ensures MemberCount(rows + [m], team, user)
      == MemberCount(rows, team, user) + (if m.teamId == team && m.userId == user then 1 else 0)
    decreases |rows|
  {
    if rows == [] {
      assert rows + [m] == [m];
    } else {
      assert (rows + [m])[1..] == rows[1..] + [m];
      MemberCountAppend(rows[1..], m, team, user);
    }
  }

  /** The membership guard: some row exists for the pair, active or not. */
  predicate HasMembership(rows: seq<MemberRow>, team: Id, user: Id) {
    exists m :: m in rows && m.teamId == team && m.userId == user
  }

  lemma {:induction false} HasMembershipCount(rows: seq<MemberRow>, team: Id, user: Id)
    ensures HasMembership(rows, team, user) <==> MemberCount(rows, team, user) > 0
    decreases |rows|
  {
    if rows != [] {
      HasMembershipCount(rows[1..], team, user);
      assert rows == [rows[0]] + rows[1..];
    }
  }

  /** The join lookup key: the typed code, trimmed, then upper-cased. */
  function LookupKey(code: string): (key: string)
    ensures Bare(key) && IsUpper(key)
    ensures key == [] <==> Trim(code) == []
    ensures |key| == |Trim(code)| && forall i :: 0 <= i < |key| ==> key[i] == UpperChar(Trim(code)[i])
  {
    ToUpperKeepsSpacing(Trim(code));
    ToUpperIsUpper(Trim(code));
    ToUpper(Trim(code))
  }

  /** The join form's `maxLength` (OnboardingFlow.tsx:313). */
  const CodeFieldLength: nat := 8

  /** The code field's value after an edit: capped at eight characters and upper-cased as typed. */
  function EditCodeField(raw: string): (r: string)
    ensures |r| <= CodeFieldLength && IsUpper(r)
    ensures |r| == if |raw| <= CodeFieldLength then |raw| else CodeFieldLength
    ensures forall i :: 0 <= i < |r| ==> r[i] == UpperChar(raw[i])
  {
    ToUpperIsUpper(Take(raw, CodeFieldLength));
    ToUpper(Take(raw, CodeFieldLength))
  }

  /** Upper-casing the field while typing never changes the key the join looks up. */
  lemma EditCodeFieldKeepsKey(raw: string)
    ensures LookupKey(EditCodeField(raw)) == LookupKey(Take(raw, CodeFieldLength))
  {
    var t := Take(raw, CodeFieldLength);
    TrimToUpperCommute(t);
    ToUpperIdempotent(Trim(t));
  }

  /** The `teams` query by invitation code: the first team stored with that code. */
  function FindTeam(teams: seq<TeamRow>, key: string): (r: Option<TeamRow>)
    ensures r.Some? ==> r.value in teams && r.value.invitationCode == key
    ensures r.None? <==> forall t :: t in teams ==> t.invitationCode != key
    ensures r.Some? ==> exists i :: 0 <= i < |teams| && teams[i] == r.value
                                   && forall k :: 0 <= k < i ==> teams[k].invitationCode != key
  {
    match FindIndex(teams, (t: TeamRow) => t.invitationCode == key)
    case None => None
    case Some(i) => Some(teams[i])
  }

  /**
   `handleJoinTeam`. A code that is blank after trimming is refused before any
   store call. Otherwise the first team whose stored code equals the key is
   looked up; with none, or with any `team_members` row already present for
   (team, user), nothing is written; else one `member` row is inserted.
   */
  function JoinTeam(db: Db, user: User, code: string, memberId: Id): (r: Handled<JoinOutcome>)
    ensures r.outcome == CodeRequired <==> Trim(code) == []
    ensures r.outcome == CodeRequired ==> r.calls == []
    ensures r.outcome != CodeRequired ==> r.calls != [] && r.calls[0] == FindTeamByCode(LookupKey(code))
    ensures r.outcome == InvalidCode <==>
      Trim(code) != [] && forall t :: t in db.teams ==> t.invitationCode != LookupKey(code)
    ensures r.outcome == InvalidCode ==> r.calls == [FindTeamByCode(LookupKey(code))]
    ensures !r.outcome.Joined? ==> r.db == db
    ensures r.outcome == AlreadyMember <==>
      && Trim(code) != [] && FindTeam(db.teams, LookupKey(code)).Some?
      && HasMembership(db.teamMembers, FindTeam(db.teams, LookupKey(code)).value.id, user.id)
    ensures r.outcome == AlreadyMember ==>
      |r.calls| == 2 && r.calls[1] == FindMembership(FindTeam(db.teams, LookupKey(code)).value.id, user.id)
    ensures r.outcome.Joined? ==>
      && Trim(code) != [] && FindTeam(db.teams, LookupKey(code)) == Some(r.outcome.team)
      && r.outcome.team in db.teams
      && r.outcome.team.invitationCode == LookupKey(code)
      && MemberCount(db.teamMembers, r.outcome.team.id, user.id) == 0
      && r.db == db.(teamMembers := db.teamMembers + [MemberRow(memberId, r.outcome.team.id, user.id, Member)])
  {
    if Trim(code) == [] then Handled(db, [], CodeRequired)
    else
      var key := LookupKey(code);
      match FindTeam(db.teams, key)
      case None => Handled(db, [FindTeamByCode(key)], InvalidCode)
      case Some(team) => Enrol(db, user, team, key, memberId)
  }

  /** The part of a join after the lookup found `team`: the membership check, then the insert. */
  function Enrol(db: Db, user: User, team: TeamRow, key: string, memberId: Id): (r: Handled<JoinOutcome>)
    ensures r.outcome == AlreadyMember <==> HasMembership(db.teamMembers, team.id, user.id)
    ensures r.outcome == AlreadyMember || r.outcome == Joined(team)
    ensures |r.calls| >= 2 && r.calls[0] == FindTeamByCode(key) && r.calls[1] == FindMembership(team.id, user.id)
    ensures r.outcome == AlreadyMember ==> |r.calls| == 2 && r.db == db
    ensures r.outcome.Joined? ==>
      && MemberCount(db.teamMembers, team.id, user.id) == 0
      && r.db == db.(teamMembers := db.teamMembers + [MemberRow(memberId, team.id, user.id, Member)])
  {
    var calls := [FindTeamByCode(key), FindMembership(team.id, user.id)];
    HasMembershipCount(db.teamMembers, team.id, user.id);
    if HasMembership(db.teamMembers, team.id, user.id) then Handled(db, calls, AlreadyMember)
    else
      var m := MemberRow(memberId, team.id, user.id, Member);
      Handled(db.(teamMembers := db.teamMembers + [m]), calls + [InsertMember(m)], Joined(team))
  }

  /** A join adds a row for a pair only when the pair had none, and then exactly one. */
  lemma {:induction false} JoinNeverDuplicates(db: Db, user: User, code: string, memberId: Id, team: Id, who: Id)
    ensures var after := JoinTeam(db, user, code, memberId).db.teamMembers;
      || MemberCount(after, team, who) == MemberCount(db.teamMembers, team, who)
      || (MemberCount(db.teamMembers, team, who) == 0 && MemberCount(after, team, who) == 1)
  {
    var r := JoinTeam(db, user, code, memberId);
    if r.outcome.Joined? {
      MemberCountAppend(db.teamMembers, MemberRow(memberId, r.outcome.team.id, user.id, Member), team, who);
    }
  }

  /** At most one `team_members` row per (team, user) pair. */
  ghost predicate UniqueMembers(rows: seq<MemberRow>) {
    forall t, u :: MemberCount(rows, t, u) <= 1
  }

  lemma JoinPreservesUniqueMembers(db: Db, user: User, code: string, memberId: Id)
    requires UniqueMembers(db.teamMembers)
    ensures UniqueMembers(JoinTeam(db, user, code, memberId).db.teamMembers)
  {
    forall t, u
      ensures MemberCount(JoinTeam(db, user, code, memberId).db.teamMembers, t, u) <= 1
    {
      JoinNeverDuplicates(db, user, code, memberId, t, u);
    }
  }

  /**
   Inserts only ever touch `organizations`, `teams` and `team_members`, and
   `team_members` only through a member insert.
   */
  lemma {:induction false} PerformKeepsOtherTables(db: Db, calls: seq<StoreCall>)
    ensures var d := PerformAll(db, calls);
      && d.userProfiles == db.userProfiles && d.teamMemberships == db.teamMemberships
      && d.assignments == db.assignments && d.presences == db.presences
      && ((forall i :: 0 <= i < |calls| ==> !calls[i].InsertMember?) ==> d.teamMembers == db.teamMembers)
    decreases |calls|
  {
    if calls != [] {
      PerformKeepsOtherTables(Perform(db, calls[0]), calls[1..]);
      assert forall i :: 0 <= i < |calls[1..]| ==> calls[1..][i] == calls[i + 1];
    }
  }

  /** The creator's membership is the last insert of a creation. */
  lemma PlanPrefixInsertsNoMember(user: User, form: CreateTeamForm, ids: FreshIds, k: nat)
    requires k <= 2
    ensures var done := CreatePlan(user, form, ids)[..k];
      forall i :: 0 <= i < |done| ==> !done[i].InsertMember?
  {
    var plan := CreatePlan(user, form, ids);
    assert !plan[0].InsertMember? && !plan[1].InsertMember?;
    forall i | 0 <= i < k
      ensures !plan[..k][i].InsertMember?
    {
      assert plan[..k][i] == plan[i];
    }
  }

  /** What the inserts before a failing one leave behind. */
  lemma PrefixKeepsOtherTables(db: Db, user: User, form: CreateTeamForm, ids: FreshIds, k: nat)
    requires k <= 2
    ensures var d := PerformAll(db, CreatePlan(user, form, ids)[..k]);
      && d.userProfiles == db.userProfiles && d.teamMemberships == db.teamMemberships
      && d.assignments == db.assignments && d.presences == db.presences
      && d.teamMembers == db.teamMembers
  {
    PlanPrefixInsertsNoMember(user, form, ids, k);
    PerformKeepsOtherTables(db, CreatePlan(user, form, ids)[..k]);
  }

  /**
   A team creation writes no table but `organizations`, `teams` and
   `team_members`, and adds to `team_members` at most the creator's row, and
   only when it succeeds.
   */
  lemma CreateTouchesOnlyOnboardingTables(db: Db, user: User, form: CreateTeamForm, ids: FreshIds, fault: Fault)
    ensures var r := CreateTeam(db, user, form, ids, fault);
      && r.db.userProfiles == db.userProfiles && r.db.teamMemberships == db.teamMemberships
      && r.db.assignments == db.assignments && r.db.presences == db.presences
      && (r.outcome.TeamCreated? ==>
            && r.db.teamMembers == db.teamMembers + [r.calls[2].member]
            && r.calls[2].member.teamId == ids.teamId && r.calls[2].member.userId == user.id)
      && (!r.outcome.TeamCreated? ==> r.db.teamMembers == db.teamMembers)
  {
    var r := CreateTeam(db, user, form, ids, fault);
    if r.outcome == CreateFailed {
      PrefixKeepsOtherTables(db, user, form, ids, fault.step);
    }
  }

  /** With a team id not yet used in `team_members`, creating a team keeps pairs unique. */
  lemma CreatePreservesUniqueMembers(db: Db, user: User, form: CreateTeamForm, ids: FreshIds, fault: Fault)
    requires UniqueMembers(db.teamMembers)
    requires forall m :: m in db.teamMembers ==> m.teamId != ids.teamId
    ensures UniqueMembers(CreateTeam(db, user, form, ids, fault).db.teamMembers)
  {
    var r := CreateTeam(db, user, form, ids, fault);
    var after := r.db.teamMembers;
    CreateTouchesOnlyOnboardingTables(db, user, form, ids, fault);
    forall t, u
      ensures MemberCount(after, t, u) <= 1
    {
      if r.outcome.TeamCreated? {
        var m := r.calls[2].member;
        MemberCountAppend(db.teamMembers, m, t, u);
        if t == ids.teamId && u == user.id {
          HasMembershipCount(db.teamMembers, t, u);
        }
      }
    }
  }

  /**
   When the membership insert throws, the organization and team rows stay
   and the team is left with no membership row: nothing compensates.
   */
  lemma FailedMembershipLeavesTeam(db: Db, user: User, form: CreateTeamForm, ids: FreshIds)
    requires Trim(form.name) != []
    ensures var r := CreateTeam(db, user, form, ids, FailsAt(2));
      && r.outcome == CreateFailed
      && r.db.organizations == db.organizations + [NewOrganization(user, ids)]
      && r.db.teams == db.teams + [NewTeam(user, form, ids)]
      && NewTeam(user, form, ids).id == ids.teamId
      && r.db.teamMembers == db.teamMembers
    ensures (forall m :: m in db.teamMembers ==> m.teamId != ids.teamId) ==>
      forall m :: m in CreateTeam(db, user, form, ids, FailsAt(2)).db.teamMembers ==> m.teamId != ids.teamId
  {
    var r := CreateTeam(db, user, form, ids, FailsAt(2));
    var o, t, m := NewOrganization(user, ids), NewTeam(user, form, ids), NewAdmin(user, ids);
    assert CreatePlan(user, form, ids) == [InsertOrganization(o), InsertTeam(t), InsertMember(m)];
    PerformPlanPrefixes(db, o, t, m);
  }

  /**
   The lookup is insensitive to letter case and to surrounding white space:
   any input whose upper-casing is a code no other stored team holds, padded
   with white space, reaches that team.
   */
  lemma {:induction false} JoinMatchesAnyCaseAndPadding(db: Db, user: User, memberId: Id,
                                                       team: TeamRow, before: string, typed: string, after: string)
    requires team in db.teams
    requires forall t :: t in db.teams && t.invitationCode == team.invitationCode ==> t == team
    requires team.invitationCode != [] && Bare(team.invitationCode)
    requires AllSpace(before) && AllSpace(after) && ToUpper(typed) == team.invitationCode
    ensures var r := JoinTeam(db, user, before + typed + after, memberId);
      && (r.outcome == Joined(team) || r.outcome == AlreadyMember)
      && (r.outcome == AlreadyMember <==> HasMembership(db.teamMembers, team.id, user.id))
  {
    var key := LookupKey(before + typed + after);
    assert key == team.invitationCode by {
      ToUpperKeepsSpacing(typed);
      TrimOfPadded(before, typed, after);
    }
    assert FindTeam(db.teams, key) == Some(team);
  }
}

=== FILE: presence.dfy ===
/**
 The presence ledger as the dashboard drives it: the per-user presence
 query, the upsert of one declaration, and the lookup that paints each
 assignment's status.
 */
module Presence {
  import opened Wrappers
  import opened Types
  import opened Seqs
  import opened Text

  /** The fields `updatePresence` writes, whichever branch it takes. */
  datatype Declaration = Declaration(status: PresenceStatus, justification: Option<string>, declaredBy: Id, declaredAt: Stamp)

  /** The id of each assignment, in the same order. */
  function IdsOf(assignments: seq<Assignment>): (ids: seq<Id>)
    ensures |ids| == |assignments|
    ensures forall i :: 0 <= i < |assignments| ==> ids[i] == assignments[i].id
  {
    seq(|assignments|, i requires 0 <= i < |assignments| => assignments[i].id)
  }

  /** The presences query: the user's rows for the listed assignments, in store order. */
  function ListForUser(store: seq<PresenceRow>, user: Id, ids: seq<Id>): (r: seq<PresenceRow>)
    ensures SubsequenceOf(r, store)
    ensures forall p :: p in r ==> p in store && p.userId == user && p.assignmentId in ids
    ensures forall p :: p in store && p.userId == user && p.assignmentId in ids ==> p in r
  {
    Filter(store, (p: PresenceRow) => p.userId == user && p.assignmentId in ids)
  }

  /** `getPresenceStatus`: the first loaded row for the assignment, if any. */
  function StatusFor(loaded: seq<PresenceRow>, assignment: Id): (r: Option<PresenceRow>)
    ensures r.Some? ==> r.value in loaded && r.value.assignmentId == assignment
    ensures r.None? <==> forall p :: p in loaded ==> p.assignmentId != assignment
    ensures r.Some? ==> exists i :: 0 <= i < |loaded| && loaded[i] == r.value
                                   && forall k :: 0 <= k < i ==> loaded[k].assignmentId != assignment
  {
    match FindIndex(loaded, (p: PresenceRow) => p.assignmentId == assignment)
    case Some(i) => Some(loaded[i])
    case None => None
  }

  /** The update branch's patch: status and declaration fields change, override fields do not. */
  function Patch(p: PresenceRow, d: Declaration): PresenceRow {
    p.(status := d.status, justification := d.justification, declaredBy := d.declaredBy, declaredAt := d.declaredAt)
  }

  /** `presences.update(id, ...)`: every row carrying that id is patched. */
  function UpdateById(store: seq<PresenceRow>, id: Id, d: Declaration): (r: seq<PresenceRow>)
    ensures |r| == |store|
    ensures forall i :: 0 <= i < |store| ==> r[i] == if store[i].id == id then Patch(store[i], d) else store[i]
  {
    seq(|store|, i requires 0 <= i < |store| => if store[i].id == id then Patch(store[i], d) else store[i])
  }

  /** The row the create branch inserts: self-declared, no administrative override. */
  function NewRow(id: Id, assignment: Id, user: Id, d: Declaration): PresenceRow {
    PresenceRow(id, assignment, user, d.status, d.justification, d.declaredBy, d.declaredAt, false, None, None)
  }

  /**
   The write `updatePresence` performs. When the loaded list holds a row for
   the assignment, that row is updated in place by id and nothing is created;
   otherwise exactly one row is appended for (assignment, user), declared by
   the user, without override. The justification `""` is stored as null.
   */
  function Declare(store: seq<PresenceRow>, loaded: seq<PresenceRow>, user: Id, assignment: Id,
                   status: PresenceStatus, justification: Option<string>, at: Stamp, freshId: Id): (r: seq<PresenceRow>)
    ensures StatusFor(loaded, assignment).Some? ==>
      var target := StatusFor(loaded, assignment).value;
      && |r| == |store|
      && forall i :: 0 <= i < |store| ==>
           && r[i].id == store[i].id
           && r[i].assignmentId == store[i].assignmentId
           && r[i].userId == store[i].userId
           && r[i].adminOverride == store[i].adminOverride
           && r[i].adminOverrideBy == store[i].adminOverrideBy
           && r[i].adminOverrideAt == store[i].adminOverrideAt
           && (store[i].id == target.id ==>
                 r[i].status == status && r[i].declaredBy == user && r[i].declaredAt == at
                 && r[i].justification == OrNull(justification))
           && (store[i].id != target.id ==> r[i] == store[i])
    ensures StatusFor(loaded, assignment).None? ==>
      && |r| == |store| + 1
      && r[..|store|] == store
      && r[|store|].id == freshId
      && r[|store|].assignmentId == assignment
      && r[|store|].userId == user && r[|store|].declaredBy == user
      && r[|store|].status == status
      && r[|store|].justification == OrNull(justification)
      && r[|store|].declaredAt == at
      && !r[|store|].adminOverride && r[|store|].adminOverrideBy.None? && r[|store|].adminOverrideAt.None?
  {
    var d := Declaration(status, OrNull(justification), user, at);
    match StatusFor(loaded, assignment)
    case Some(existing) => UpdateById(store, existing.id, d)
    case None => store + [NewRow(freshId, assignment, user, d)]
  }

  /** Number of rows for (assignment, user): the ledger's natural key. */
  function CountFor(store: seq<PresenceRow>, assignment: Id, user: Id): (n: nat)
    ensures n <= |store|
  {
    if store == [] then 0
    else
      var here := if store[0].assignmentId == assignment && store[0].userId == user then 1 else 0;
      here + CountFor(store[1..], assignment, user)
  }

  /** Some row for (assignment, user) exists exactly when the count is positive. */
  lemma {:induction false} CountForPositive(store: seq<PresenceRow>, assignment: Id, user: Id)
    ensures CountFor(store, assignment, user) > 0 <==>
      exists p :: p in store && p.assignmentId == assignment && p.userId == user
    decreases |store|
  {
    if store != [] {
      CountForPositive(store[1..], assignment, user);
      assert store == [store[0]] + store[1..];
    }
  }

  /** Two distinct positions holding rows for the same key make its count at least two. */
  lemma {:induction false} TwoRowsCountTwice(store: seq<PresenceRow>, assignment: Id, user: Id, i: nat, j: nat)
    requires i < j < |store|
    requires store[i].assignmentId == assignment && store[i].userId == user
    requires store[j].assignmentId == assignment && store[j].userId == user
    ensures CountFor(store, assignment, user) >= 2
    decreases |store|
  {
    if i == 0 {
      CountForPositive(store[1..], assignment, user);
      assert store[1..][j - 1] == store[j];
    } else {
      TwoRowsCountTwice(store[1..], assignment, user, i - 1, j - 1);
    }
  }

  lemma {:induction false} CountForAppend(a: seq<PresenceRow>, b: seq<PresenceRow>, assignment: Id, user: Id)
    ensures CountFor(a + b, assignment, user) == CountFor(a, assignment, user) + CountFor(b, assignment, user)
    decreases |a|
  {
    if a == [] {
      assert a + b == b;
    } else {
      assert (a + b)[0] == a[0];
      assert (a + b)[1..] == a[1..] + b;
      CountForAppend(a[1..], b, assignment, user);
    }
  }

  /** An in-place update never changes how many rows a key has. */
  lemma {:induction false} CountForSameKeys(a: seq<PresenceRow>, b: seq<PresenceRow>, assignment: Id, user: Id)
    requires |a| == |b|
    requires forall i :: 0 <= i < |a| ==> a[i].assignmentId == b[i].assignmentId && a[i].userId == b[i].userId
    ensures CountFor(a, assignment, user) == CountFor(b, assignment, user)
    decreases |a|
  {
    if a != [] {
      CountForSameKeys(a[1..], b[1..], assignment, user);
    }
  }

  /**
   Update branch: when the loaded row for the assignment is the store's only
   row for (assignment, user), that row stays the only one and carries the
   new status.
   */
  lemma {:induction false} DeclareUpdatesTheRow(store: seq<PresenceRow>, loaded: seq<PresenceRow>, user: Id, assignment: Id,
                                                status: PresenceStatus, justification: Option<string>, at: Stamp, freshId: Id)
    requires StatusFor(loaded, assignment).Some?
    requires var target := StatusFor(loaded, assignment).value;
      target in store && target.userId == user && target.assignmentId == assignment
    requires CountFor(store, assignment, user) <= 1
    ensures var r := Declare(store, loaded, user, assignment, status, justification, at, freshId);
      && CountFor(r, assignment, user) == 1
      && forall p :: p in r && p.assignmentId == assignment && p.userId == user ==> p.status == status
  {
    var target := StatusFor(loaded, assignment).value;
    var r := Declare(store, loaded, user, assignment, status, justification, at, freshId);
    CountForPositive(store, assignment, user);
    CountForSameKeys(store, r, assignment, user);
    var k :| 0 <= k < |store| && store[k] == target;
    forall p | p in r && p.assignmentId == assignment && p.userId == user
      ensures p.status == status
    {
      var i :| 0 <= i < |r| && r[i] == p;
      if i < k {
        TwoRowsCountTwice(store, assignment, user, i, k);
      } else if k < i {
        TwoRowsCountTwice(store, assignment, user, k, i);
      }
    }
  }

  /**
   Create branch: when the store has no row for (assignment, user), the new
   row becomes the only one and carries the declared status.
   */
  lemma {:induction false} DeclareCreatesTheRow(store: seq<PresenceRow>, loaded: seq<PresenceRow>, user: Id, assignment: Id,
                                                status: PresenceStatus, justification: Option<string>, at: Stamp, freshId: Id)
    requires StatusFor(loaded, assignment).None?
    requires CountFor(store, assignment, user) == 0
    ensures var r := Declare(store, loaded, user, assignment, status, justification, at, freshId);
      && CountFor(r, assignment, user) == 1
      && forall p :: p in r && p.assignmentId == assignment && p.userId == user ==> p.status == status
  {
    var r := Declare(store, loaded, user, assignment, status, justification, at, freshId);
    CountForPositive(store, assignment, user);
    assert r == store + [r[|store|]];
    CountForAppend(store, [r[|store|]], assignment, user);
  }

  /** A declaration changes the row count of no other (assignment, user) pair. */
  lemma {:induction false} DeclareKeepsOtherKeys(store: seq<PresenceRow>, loaded: seq<PresenceRow>, user: Id, assignment: Id,
                                                 status: PresenceStatus, justification: Option<string>, at: Stamp, freshId: Id,
                                                 a: Id, u: Id)
    requires a != assignment || u != user
    ensures CountFor(Declare(store, loaded, user, assignment, status, justification, at, freshId), a, u)
         == CountFor(store, a, u)
  {
    var r := Declare(store, loaded, user, assignment, status, justification, at, freshId);
    if StatusFor(loaded, assignment).Some? {
      CountForSameKeys(store, r, a, u);
    } else {
      assert r == store + [r[|store|]];
      CountForAppend(store, [r[|store|]], a, u);
    }
  }

  /** What the row shows next to the assignment: a status label, or nothing. */
  function StatusLabel(p: Option<PresenceRow>): Option<PresenceStatus> {
    match p
    case None => None
    case Some(row) => Some(row.status)
  }

  /** Whether the given status button is drawn highlighted: only the button of the row's own status is. */
  function Highlighted(p: Option<PresenceRow>, button: PresenceStatus): bool {
    p.Some? && p.value.status == button
  }

  /**
   No row is "undeclared": no label and no highlighted button, which no
   declared status, `absent` included, ever looks like; a declared row
   shows its status and highlights that button alone.
   */
  lemma UndeclaredIsDistinct(row: PresenceRow)
    ensures StatusLabel(None) == None
    ensures forall b :: !Highlighted(None, b)
    ensures StatusLabel(Some(row)) == Some(row.status) != StatusLabel(None)
    ensures forall b :: Highlighted(Some(row), b) <==> b == row.status
  {
  }
}

=== FILE: roles.dfy ===
/** The role hierarchy and the management gate of the dashboard. */
module Roles {
  import opened Types

  /** Position in the hierarchy super_admin > team_admin > member. */
  function Rank(role: UserRole): nat {
    match role
    case SuperAdmin => 2
    case TeamAdmin => 1
    case Member => 0
  }

  /** `canManageTeam`: the role is one of the two administrative tiers. */
  function CanManageTeam(role: UserRole): (r: bool)
    ensures r <==> role != Member
    ensures r <==> Rank(role) >= Rank(TeamAdmin)
  {
    role == SuperAdmin || role == TeamAdmin
  }

  datatype Tab = AssignmentsTab | ManagementTab

  /** The dashboard's tab list: assignments always, management only behind the gate. */
  function VisibleTabs(role: UserRole): (r: seq<Tab>)
    ensures 1 <= |r| <= 2 && r[0] == AssignmentsTab
    ensures ManagementTab in r <==> role == SuperAdmin || role == TeamAdmin
    ensures |r| == 2 <==> Rank(role) > Rank(Member)
  {
    [AssignmentsTab] + (if CanManageTeam(role) then [ManagementTab] else [])
  }
}

=== FILE: schedule.dfy ===
/**
 The dashboard's upcoming-assignment window: the team's assignments query
 (ordered by date, capped at ten rows) followed by the client-side filter
 that keeps assignments starting at or after `now`.
 */
module Schedule {
  import opened Wrappers
  import opened Types
  import opened Seqs

  /** The `limit` of the dashboard's assignments query. */
  const FetchLimit: nat := 10

  /** The query's `orderBy`: `assignment_date` only, not the start time. */
  function DateKey(a: Assignment): int {
    a.date
  }

  /** Minutes since the start of day 0. */
  function Minutes(t: Instant): int {
    t.day * 1440 + t.minute
  }

  /** Minutes orders instants exactly as Before does. */
  lemma MinutesOrder(x: Instant, y: Instant)
    ensures Before(x, y) <==> Minutes(x) < Minutes(y)
  {
    if x.day < y.day {
      assert (y.day - x.day) * 1440 >= 1440;
    } else if y.day < x.day {
      assert (x.day - y.day) * 1440 >= 1440;
    }
  }

  /** Full chronological key: date, then start time. */
  function StartKey(a: Assignment): int {
    Minutes(StartOf(a))
  }

  /** An assignment is upcoming when it starts at or after `now`. */
  predicate IsUpcoming(a: Assignment, now: Instant) {
    !Before(StartOf(a), now)
  }

  /** The query's `where: { team_id }`, in store order. */
  function TeamAssignments(store: seq<Assignment>, team: Id): (r: seq<Assignment>)
    ensures forall a :: a in r ==> a in store && a.teamId == team
    ensures forall a :: a in store && a.teamId == team ==> a in r
    ensures SubsequenceOf(r, store)
  {
    Filter(store, (a: Assignment) => a.teamId == team)
  }

  /** The page the assignments query returns: the team's rows by date, at most ten. */
  function FetchPage(store: seq<Assignment>, team: Id): (page: seq<Assignment>)
    ensures |page| <= FetchLimit
    ensures SortedBy(page, DateKey)
  {
    Take(SortBy(TeamAssignments(store, team), DateKey), FetchLimit)
  }

  /**
   The page holds team assignments only, as many as the team has up to ten,
   and no team assignment left off the page is dated before one on it.
   */
  lemma {:induction false} FetchPageIsEarliest(store: seq<Assignment>, team: Id)
    ensures var page := FetchPage(store, team);
      && (forall a :: a in page ==> a in store && a.teamId == team)
      && |page| == (if |TeamAssignments(store, team)| <= FetchLimit then |TeamAssignments(store, team)| else FetchLimit)
      && (forall b, a :: b in store && b.teamId == team && b !in page && a in page ==> a.date <= b.date)
  {
    var all := TeamAssignments(store, team);
    var page := FetchPage(store, team);
    TakeSortedIsLeast(all, DateKey, FetchLimit);
    forall a | a in page
      ensures a in store && a.teamId == team
    {
      assert a in all;
    }
    forall b, a | b in store && b.teamId == team && b !in page && a in page
      ensures a.date <= b.date
    {
      assert b in all;
      assert DateKey(a) <= DateKey(b);
    }
  }

  /**
   `upcomingAssignments`: the page filtered to assignments that start at or
   after `now`, in page order.
   */
  function UpcomingWindow(store: seq<Assignment>, team: Id, now: Instant): (r: seq<Assignment>)
    ensures |r| <= FetchLimit
    ensures SubsequenceOf(r, FetchPage(store, team))
    ensures forall a :: a in r ==> a in FetchPage(store, team)
    ensures (forall a :: a in FetchPage(store, team) ==> Before(StartOf(a), now)) ==> r == []
    ensures forall a :: a in r ==> !Before(StartOf(a), now)
    ensures forall a :: a in FetchPage(store, team) && a !in r ==> Before(StartOf(a), now)
  {
    Filter(FetchPage(store, team), (a: Assignment) => IsUpcoming(a, now))
  }

  /** How many assignments of `s` are dated before `day`. */
  function CountDatedBefore(s: seq<Assignment>, day: int): (n: nat)
    ensures n <= |s|
  {
    if s == [] then 0
    else (if s[0].date < day then 1 else 0) + CountDatedBefore(s[1..], day)
  }

  lemma {:induction false} CountDatedBeforeAppend(a: seq<Assignment>, b: seq<Assignment>, day: int)
    ensures CountDatedBefore(a + b, day) == CountDatedBefore(a, day) + CountDatedBefore(b, day)
    decreases |a|
  {
    if a == [] {
      assert a + b == b;
    } else {
      assert (a + b)[0] == a[0];
      assert (a + b)[1..] == a[1..] + b;
      CountDatedBeforeAppend(a[1..], b, day);
    }
  }

  lemma {:induction false} CountDatedBeforeInsert(x: Assignment, s: seq<Assignment>, day: int)
    requires SortedBy(s, DateKey)
    ensures CountDatedBefore(Insert(x, s, DateKey), day) == CountDatedBefore([x], day) + CountDatedBefore(s, day)
    decreases |s|
  {
    if s == [] || DateKey(x) <= DateKey(s[0]) {
      CountDatedBeforeAppend([x], s, day);
    } else {
      CountDatedBeforeInsert(x, s[1..], day);
      assert Insert(x, s, DateKey) == [s[0]] + Insert(x, s[1..], DateKey);
      CountDatedBeforeAppend([s[0]], Insert(x, s[1..], DateKey), day);
    }
  }

  /** Sorting by date does not change how many assignments precede a day. */
  lemma {:induction false} CountDatedBeforeSort(s: seq<Assignment>, day: int)
    ensures CountDatedBefore(SortBy(s, DateKey), day) == CountDatedBefore(s, day)
    decreases |s|
  {
    if s != [] {
      CountDatedBeforeSort(s[1..], day);
      CountDatedBeforeInsert(s[0], SortBy(s[1..], DateKey), day);
    }
  }

  /** In a date-sorted sequence, the assignments dated before `day` all come ahead of position `i` once `s[i]` is not. */
  lemma {:induction false} DatedBeforeArePrefix(s: seq<Assignment>, i: nat, day: int)
    requires SortedBy(s, DateKey)
    requires i < |s| && s[i].date >= day
    ensures CountDatedBefore(s, day) <= i
    decreases |s|
  {
    if i == 0 {
      NoneDatedBefore(s, day);
    } else {
      DatedBeforeArePrefix(s[1..], i - 1, day);
    }
  }

  lemma {:induction false} NoneDatedBefore(s: seq<Assignment>, day: int)
    requires forall k :: 0 <= k < |s| ==> s[k].date >= day
    ensures CountDatedBefore(s, day) == 0
    decreases |s|
  {
    if s != [] {
      NoneDatedBefore(s[1..], day);
    }
  }

  /**
   As written, the window is computed from the ten oldest team assignments:
   once ten of them lie on days before today, the window is empty, whatever
   the team has scheduled later.
   */
  lemma {:induction false} PastAssignmentsFillWindow(store: seq<Assignment>, team: Id, now: Instant)
    requires CountDatedBefore(TeamAssignments(store, team), now.day) >= FetchLimit
    ensures UpcomingWindow(store, team, now) == []
  {
    var all := TeamAssignments(store, team);
    var sorted := SortBy(all, DateKey);
    var page := FetchPage(store, team);
    CountDatedBeforeSort(all, now.day);
    assert |sorted| >= FetchLimit;
    assert page == sorted[..FetchLimit];
    forall i | 0 <= i < |page|
      ensures Before(StartOf(page[i]), now)
    {
      if page[i].date >= now.day {
        DatedBeforeArePrefix(sorted, i, now.day);
        assert false;
      }
    }
    var r := UpcomingWindow(store, team, now);
    assert forall a :: a in page ==> Before(StartOf(a), now);
  }

  /**
   The window the dashboard evidently means to show: the team's assignments
   that start at or after `now`, earliest first by date and start time, at
   most ten.
   */
  function NextUpcoming(store: seq<Assignment>, team: Id, now: Instant): (r: seq<Assignment>)
    ensures |r| <= FetchLimit
    ensures SortedBy(r, StartKey)
  {
    Take(SortBy(Filter(store, (a: Assignment) => a.teamId == team && IsUpcoming(a, now)), StartKey), FetchLimit)
  }

  /** NextUpcoming shows only upcoming assignments of the team. */
  lemma {:induction false} NextUpcomingIsSound(store: seq<Assignment>, team: Id, now: Instant)
    ensures forall a :: a in NextUpcoming(store, team, now) ==>
      a in store && a.teamId == team && !Before(StartOf(a), now)
  {
    var future := Filter(store, (a: Assignment) => a.teamId == team && IsUpcoming(a, now));
    var sorted := SortBy(future, StartKey);
    var r := NextUpcoming(store, team, now);
    forall a | a in r
      ensures a in store && a.teamId == team && !Before(StartOf(a), now)
    {
      assert a in multiset(sorted);
      assert a in multiset(future);
    }
  }

  /**
   NextUpcoming leaves an upcoming team assignment out only when ten that
   start no later than it fill the window.
   */
  lemma {:induction false} NextUpcomingIsComplete(store: seq<Assignment>, team: Id, now: Instant, b: Assignment)
    requires b in store && b.teamId == team && !Before(StartOf(b), now)
    ensures var r := NextUpcoming(store, team, now);
      b !in r ==> |r| == FetchLimit && forall a :: a in r ==> !Before(StartOf(b), StartOf(a))
    ensures NextUpcoming(store, team, now) != []
  {
    var future := Filter(store, (a: Assignment) => a.teamId == team && IsUpcoming(a, now));
    var sorted := SortBy(future, StartKey);
    var r := NextUpcoming(store, team, now);
    assert b in future;
    assert b in multiset(sorted);
    var j :| 0 <= j < |sorted| && sorted[j] == b;
    assert r != [];
    if b !in r {
      assert j >= |r|;
      forall a | a in r
        ensures !Before(StartOf(b), StartOf(a))
      {
        var i :| 0 <= i < |r| && r[i] == a;
        assert sorted[i] == a;
        MinutesOrder(StartOf(b), StartOf(a));
      }
    }
  }

  /**
   The two windows disagree on every store with ten past team assignments
   and one upcoming: the one as written shows nothing, the intended one does.
   */
  lemma WindowHidesUpcoming(store: seq<Assignment>, team: Id, now: Instant, b: Assignment)
    requires CountDatedBefore(TeamAssignments(store, team), now.day) >= FetchLimit
    requires b in store && b.teamId == team && !Before(StartOf(b), now)
    ensures UpcomingWindow(store, team, now) == []
    ensures NextUpcoming(store, team, now) != []
  {
    PastAssignmentsFillWindow(store, team, now);
    NextUpcomingIsComplete(store, team, now, b);
  }
}

=== FILE: seqs.dfy ===
/**
 Sequence operations that stand for the record store's list queries and for
 the array methods the handlers use (`filter`, `find`, `map`): results keep
 the store's insertion order.
 */
module Seqs {
  import opened Wrappers

  /** `a` is `b` with some elements left out and the rest kept in order. */
  predicate SubsequenceOf<T(==)>(a: seq<T>, b: seq<T>)
    decreases |b|
  {
    && |a| <= |b|
    && (|| a == []
        || (a[0] == b[0] && SubsequenceOf(a[1..], b[1..]))
        || SubsequenceOf(a, b[1..]))
  }

  /** `Array.prototype.filter`, and a `list` query with a `where` clause. */
  function Filter<T(==)>(s: seq<T>, p: T -> bool): (r: seq<T>)
    ensures forall x :: x in r ==> x in s && p(x)
    ensures forall x :: x in s && p(x) ==> x in r
    ensures (forall x :: x in s ==> !p(x)) ==> r == []
    ensures SubsequenceOf(r, s)
  {
    if s == [] then []
    else
      assert s == [s[0]] + s[1..];
      if p(s[0]) then [s[0]] + Filter(s[1..], p) else Filter(s[1..], p)
  }

  /** `Array.prototype.findIndex`: the first position whose element satisfies `p`. */
  function FindIndex<T>(s: seq<T>, p: T -> bool): (r: Option<nat>)
    ensures r.Some? ==> r.value < |s| && p(s[r.value])
    ensures r.Some? ==> forall k :: 0 <= k < r.value ==> !p(s[k])
    ensures r.None? <==> forall k :: 0 <= k < |s| ==> !p(s[k])
  {
    if s == [] then None
    else if p(s[0]) then Some(0)
    else
      match FindIndex(s[1..], p)
      case None => None
      case Some(k) => Some(k + 1)
  }

  /** The `limit` of a `list` query: at most `n` leading elements. */
  function Take<T>(s: seq<T>, n: nat): (r: seq<T>)
    ensures |r| == if |s| <= n then |s| else n
    ensures r == s[..|r|]
  {
    if |s| <= n then s else s[..n]
  }

  /** Ascending by `key`. */
  predicate SortedBy<T>(s: seq<T>, key: T -> int) {
    forall i, j :: 0 <= i < j < |s| ==> key(s[i]) <= key(s[j])
  }

  /** Puts `x` into a sorted sequence, ahead of the elements with the same key. */
  function Insert<T>(x: T, s: seq<T>, key: T -> int): (r: seq<T>)
    requires SortedBy(s, key)
    ensures multiset(r) == multiset(s) + multiset{x}
    ensures SortedBy(r, key)
  {
    if s == [] || key(x) <= key(s[0]) then [x] + s
    else
      var rest := Insert(x, s[1..], key);
      assert s == [s[0]] + s[1..];
      BoundedBelow(s[0], s[1..], x, rest, key);
      ConsSorted(s[0], rest, key);
      assert multiset([s[0]] + rest) == multiset{s[0]} + multiset(rest);
      [s[0]] + rest
  }

  /** A bound below every element of `tail` and `x` bounds any permutation of them. */
  lemma BoundedBelow<T>(h: T, tail: seq<T>, x: T, rest: seq<T>, key: T -> int)
    requires forall k :: 0 <= k < |tail| ==> key(h) <= key(tail[k])
    requires key(h) <= key(x)
    requires multiset(rest) == multiset(tail) + multiset{x}
    ensures forall k :: 0 <= k < |rest| ==> key(h) <= key(rest[k])
  {
    forall k | 0 <= k < |rest|
      ensures key(h) <= key(rest[k])
    {
      assert rest[k] in multiset(rest);
      if rest[k] != x {
        assert rest[k] in multiset(tail);
        var j :| 0 <= j < |tail| && tail[j] == rest[k];
      }
    }
  }

  lemma ConsSorted<T>(h: T, rest: seq<T>, key: T -> int)
    requires SortedBy(rest, key)
    requires forall k :: 0 <= k < |rest| ==> key(h) <= key(rest[k])
    ensures SortedBy([h] + rest, key)
  {
    var s := [h] + rest;
    forall i, j | 0 <= i < j < |s|
      ensures key(s[i]) <= key(s[j])
    {
      assert s[j] == rest[j - 1];
      if i > 0 {
        assert s[i] == rest[i - 1];
      }
    }
  }

  /** The `orderBy` of a `list` query: a permutation of `s` ascending by `key`. */
  function SortBy<T>(s: seq<T>, key: T -> int): (r: seq<T>)
    ensures multiset(r) == multiset(s)
    ensures SortedBy(r, key)
  {
    if s == [] then []
    else
      assert s == [s[0]] + s[1..];
      Insert(s[0], SortBy(s[1..], key), key)
  }

  /**
   The first `n` of a sort by `key` are elements of `s`, as many as `s` has up
   to `n`, and none of the elements left out has a smaller key than one kept.
   */
  lemma TakeSortedIsLeast<T>(s: seq<T>, key: T -> int, n: nat)
    ensures var page := Take(SortBy(s, key), n);
      && (forall a :: a in page ==> a in s)
      && |page| == (if |s| <= n then |s| else n)
      && (forall b, a :: b in s && b !in page && a in page ==> key(a) <= key(b))
  {
    var sorted := SortBy(s, key);
    var page := Take(sorted, n);
    assert |sorted| == |s| by {
      assert |multiset(sorted)| == |multiset(s)|;
    }
    forall a | a in page
      ensures a in s
    {
      assert a in multiset(sorted);
    }
    forall b, a | b in s && b !in page && a in page
      ensures key(a) <= key(b)
    {
      assert b in multiset(sorted);
      var j :| 0 <= j < |sorted| && sorted[j] == b;
      var i :| 0 <= i < |page| && page[i] == a;
      assert j >= |page|;
      assert sorted[i] == a;
    }
  }
}

=== FILE: session.dfy ===
/**
 The application shell: loading the signed-in user's profile, active
 memberships and teams, deciding between onboarding and the dashboard,
 switching teams, and the render precedence of the four screens.
 */
module Session {
  import opened Wrappers
  import opened Types
  import opened Seqs
  import Onboarding

  /** The shell's state: user, profile, teams with roles, current team and the two flags. */
  datatype AppState = AppState(
    user: Option<User>,
    profile: Option<UserProfile>,
    teams: seq<TeamWithRole>,
    currentTeam: Option<TeamWithRole>,
    loading: bool,
    needsOnboarding: bool)

  /** The profiles query: `userProfiles` rows of the user, in store order. */
  function ProfilesOf(db: Db, userId: Id): (r: seq<UserProfile>)
    ensures forall p :: p in r ==> p in db.userProfiles && p.userId == userId
    ensures forall p :: p in db.userProfiles && p.userId == userId ==> p in r
  {
    Filter(db.userProfiles, (p: UserProfile) => p.userId == userId)
  }

  /** The memberships query: the user's `teamMemberships` rows whose `isActive` is "1". */
  function ActiveMemberships(rows: seq<TeamMembership>, userId: Id): (r: seq<TeamMembership>)
    ensures forall m :: m in r ==> m in rows && m.userId == userId && m.isActive == "1"
    ensures forall m :: m in rows && m.userId == userId && m.isActive == "1" ==> m in r
  {
    Filter(rows, (m: TeamMembership) => m.userId == userId && m.isActive == "1")
  }

  /** The team id of each membership, in the same order. */
  function TeamIdsOf(ms: seq<TeamMembership>): (ids: seq<Id>)
    ensures |ids| == |ms|
    ensures forall i :: 0 <= i < |ms| ==> ids[i] == ms[i].teamId
  {
    seq(|ms|, i requires 0 <= i < |ms| => ms[i].teamId)
  }

  /** The role of the first membership that names the team, if any. */
  function RoleFor(ms: seq<TeamMembership>, teamId: Id): (r: Option<UserRole>)
    ensures r.Some? <==> teamId in TeamIdsOf(ms)
    ensures r.Some? ==> exists i :: (&& 0 <= i < |ms| && ms[i].teamId == teamId && ms[i].role == r.value
                                     && forall k :: 0 <= k < i ==> ms[k].teamId != teamId)
  {
    match FindIndex(ms, (m: TeamMembership) => m.teamId == teamId)
    case Some(i) => Some(ms[i].role)
    case None =>
      assert forall k :: 0 <= k < |ms| ==> TeamIdsOf(ms)[k] != teamId;
      None
  }

  /** Each fetched team paired with the role of the first membership naming it; every fetched team must have one. */
  function WithRoles(teamData: seq<TeamRow>, ms: seq<TeamMembership>): (r: seq<TeamWithRole>)
    requires forall t :: t in teamData ==> t.id in TeamIdsOf(ms)
    ensures |r| == |teamData|
    ensures forall i :: 0 <= i < |r| ==> r[i].team == teamData[i] && RoleFor(ms, teamData[i].id) == Some(r[i].userRole)
  {
    seq(|teamData|, i requires 0 <= i < |teamData| => TeamWithRole(teamData[i], RoleFor(ms, teamData[i].id).value))
  }

  lemma WithRolesSound(teams: seq<TeamRow>, teamData: seq<TeamRow>, ms: seq<TeamMembership>)
    requires forall t :: t in teamData ==> t in teams && t.id in TeamIdsOf(ms)
    ensures forall e :: e in WithRoles(teamData, ms) ==> e.team in teams && RoleFor(ms, e.team.id) == Some(e.userRole)
  {
    var r := WithRoles(teamData, ms);
    forall e | e in r
      ensures e.team in teams && RoleFor(ms, e.team.id) == Some(e.userRole)
    {
      var i :| 0 <= i < |r| && r[i] == e;
      assert teamData[i] in teamData;
    }
  }

  lemma WithRolesComplete(teamData: seq<TeamRow>, ms: seq<TeamMembership>)
    requires forall t :: t in teamData ==> t.id in TeamIdsOf(ms)
    ensures forall t :: t in teamData ==> TeamWithRole(t, RoleFor(ms, t.id).value) in WithRoles(teamData, ms)
  {
    var r := WithRoles(teamData, ms);
    forall t | t in teamData
      ensures TeamWithRole(t, RoleFor(ms, t.id).value) in r
    {
      var i :| 0 <= i < |teamData| && teamData[i] == t;
      assert r[i] == TeamWithRole(t, RoleFor(ms, t.id).value);
    }
  }

  /**
   The teams query joined with roles: one entry per stored team the
   memberships point at, in store order, each with the role of the first
   membership for it; and every such team has its entry.
   */
  function TeamsWithRoles(teams: seq<TeamRow>, ms: seq<TeamMembership>): (r: seq<TeamWithRole>)
    ensures forall e :: e in r ==> e.team in teams && RoleFor(ms, e.team.id) == Some(e.userRole)
    ensures forall t :: t in teams && t.id in TeamIdsOf(ms) ==> TeamWithRole(t, RoleFor(ms, t.id).value) in r
  {
    var ids := TeamIdsOf(ms);
    var teamData := Filter(teams, (t: TeamRow) => t.id in ids);
    WithRolesSound(teams, teamData, ms);
    WithRolesComplete(teamData, ms);
    WithRoles(teamData, ms)
  }

  /**
   `loadUserData`. No profile: onboarding, nothing else loaded. A profile but
   no active membership: onboarding. Otherwise one entry per fetched team,
   each with the role of the user's first active membership for it, and the
   first entry becomes current.
   */
  function LoadUserData(st: AppState, db: Db, user: User): (r: AppState)
    ensures !r.loading && r.user == st.user
    ensures r.needsOnboarding <==>
      st.needsOnboarding || ProfilesOf(db, user.id) == [] || ActiveMemberships(db.teamMemberships, user.id) == []
    ensures ProfilesOf(db, user.id) == [] ==> r == st.(needsOnboarding := true, loading := false)
    ensures ProfilesOf(db, user.id) != [] ==> r.profile == Some(ProfilesOf(db, user.id)[0])
    ensures ActiveMemberships(db.teamMemberships, user.id) == [] ==> r.teams == st.teams && r.currentTeam == st.currentTeam
    ensures ProfilesOf(db, user.id) != [] && ActiveMemberships(db.teamMemberships, user.id) != [] ==>
      && r.teams == TeamsWithRoles(db.teams, ActiveMemberships(db.teamMemberships, user.id))
      && (r.teams != [] ==> r.currentTeam == Some(r.teams[0]))
      && (r.teams == [] ==> r.currentTeam == st.currentTeam)
  {
    var profiles := ProfilesOf(db, user.id);
    if profiles == [] then st.(needsOnboarding := true, loading := false)
    else
      var ms := ActiveMemberships(db.teamMemberships, user.id);
      if ms == [] then st.(profile := Some(profiles[0]), needsOnboarding := true, loading := false)
      else
        var withRoles := TeamsWithRoles(db.teams, ms);
        var current := if withRoles != [] then Some(withRoles[0]) else st.currentTeam;
        st.(profile := Some(profiles[0]), teams := withRoles, currentTeam := current, loading := false)
  }

  /** Loading reads only the user's profiles, the user's active memberships and the teams. */
  lemma LoadReadsOnlyActiveMemberships(st: AppState, db1: Db, db2: Db, user: User)
    requires ProfilesOf(db1, user.id) == ProfilesOf(db2, user.id)
    requires ActiveMemberships(db1.teamMemberships, user.id) == ActiveMemberships(db2.teamMemberships, user.id)
    requires db1.teams == db2.teams
    ensures LoadUserData(st, db1, user) == LoadUserData(st, db2, user)
  {
  }

  /**
   The state `handleOnboardingComplete` leaves while its reload is pending:
   the flag is cleared at once and nothing else changes, `loading` included.
   */
  function ClearOnboarding(st: AppState): (r: AppState)
    ensures !r.needsOnboarding
    ensures r == st.(needsOnboarding := r.needsOnboarding)
  {
    st.(needsOnboarding := false)
  }

  /**
   Until the reload resolves, the shell shows what the previous state had
   behind the onboarding flag: the previous team's dashboard, or the no-team
   screen, and the loading screen only if it was already loading.
   */
  lemma CompleteOnboardingInterim(st: AppState)
    ensures var s := Render(ClearOnboarding(st));
      && (st.loading ==> s == LoadingScreen)
      && (!st.loading && st.currentTeam.Some? ==> s == DashboardScreen(st.currentTeam.value))
      && (!st.loading && st.currentTeam.None? ==> s == NoTeamScreen)
  {
  }

  /**
   `handleOnboardingComplete` once its reload has resolved: the flag is
   cleared, then the user's data is reloaded when a user is signed in.
   */
  function CompleteOnboarding(st: AppState, db: Db): (r: AppState)
    ensures r.user == st.user
    ensures st.user.None? ==> r == st.(needsOnboarding := false)
    ensures st.user.Some? ==> !r.loading
    ensures r.needsOnboarding <==> (st.user.Some? &&
      (ProfilesOf(db, st.user.value.id) == [] || ActiveMemberships(db.teamMemberships, st.user.value.id) == []))
    ensures st.user.Some? ==> r == LoadUserData(ClearOnboarding(st), db, st.user.value)
  {
    var cleared := ClearOnboarding(st);
    if st.user.Some? then LoadUserData(cleared, db, st.user.value) else cleared
  }

  /** `handleTeamChange`: switch to the loaded team with that id, if there is one. */
  function ChangeTeam(st: AppState, teamId: Id): (r: AppState)
    ensures r == st.(currentTeam := r.currentTeam)
    ensures (forall e :: e in st.teams ==> e.team.id != teamId) ==> r == st
    ensures r.currentTeam != st.currentTeam ==>
      r.currentTeam.Some? && r.currentTeam.value in st.teams && r.currentTeam.value.team.id == teamId
    ensures (exists e :: e in st.teams && e.team.id == teamId) ==>
      r.currentTeam.Some? && r.currentTeam.value in st.teams && r.currentTeam.value.team.id == teamId
    ensures (exists e :: e in st.teams && e.team.id == teamId) ==>
      exists i :: 0 <= i < |st.teams| && r.currentTeam == Some(st.teams[i])
                  && forall k :: 0 <= k < i ==> st.teams[k].team.id != teamId
  {
    match FindIndex(st.teams, (e: TeamWithRole) => e.team.id == teamId)
    case Some(i) => st.(currentTeam := Some(st.teams[i]))
    case None => st
  }

  /** The four screens the shell can show. */
  datatype Screen = LoadingScreen | OnboardingScreen | DashboardScreen(team: TeamWithRole) | NoTeamScreen

  /** The render branch: loading first, then onboarding, then the dashboard of the current team. */
  function Render(st: AppState): (r: Screen)
    ensures r == LoadingScreen <==> st.loading
    ensures r == OnboardingScreen <==> !st.loading && st.needsOnboarding
    ensures r.DashboardScreen? <==> !st.loading && !st.needsOnboarding && st.currentTeam.Some?
    ensures r.DashboardScreen? ==> r.team == st.currentTeam.value
  {
    if st.loading then LoadingScreen
    else if st.needsOnboarding then OnboardingScreen
    else if st.currentTeam.Some? then DashboardScreen(st.currentTeam.value)
    else NoTeamScreen
  }

  /**
   A user with a profile and an active membership whose team exists lands on
   the dashboard of a team they hold an active membership in.
   */
  lemma LoadReachesDashboard(st: AppState, db: Db, user: User, t: TeamRow)
    requires !st.needsOnboarding
    requires ProfilesOf(db, user.id) != []
    requires t in db.teams && t.id in TeamIdsOf(ActiveMemberships(db.teamMemberships, user.id))
    ensures var r := Render(LoadUserData(st, db, user));
      && r.DashboardScreen?
      && r.team.team in db.teams
      && r.team.team.id in TeamIdsOf(ActiveMemberships(db.teamMemberships, user.id))
  {
    var ms := ActiveMemberships(db.teamMemberships, user.id);
    assert ms != [];
    var r := LoadUserData(st, db, user);
    assert TeamWithRole(t, RoleFor(ms, t.id).value) in r.teams;
    assert r.teams[0] in r.teams;
  }

  /**
   Onboarding writes `organizations`, `teams` and `team_members` only, never
   `userProfiles` or `teamMemberships`; so a signed-in user whom loading sent
   to onboarding for want of a profile or an active membership is sent there
   again when onboarding completes, whichever way it completed.
   */
  lemma OnboardingLeavesSessionStoresAlone(st: AppState, db: Db, user: User,
                                           form: Onboarding.CreateTeamForm, ids: Onboarding.FreshIds,
                                           fault: Onboarding.Fault, code: string, memberId: Id)
    requires st.user == Some(user)
    requires ProfilesOf(db, user.id) == [] || ActiveMemberships(db.teamMemberships, user.id) == []
    ensures CompleteOnboarding(st, Onboarding.CreateTeam(db, user, form, ids, fault).db).needsOnboarding
    ensures CompleteOnboarding(st, Onboarding.JoinTeam(db, user, code, memberId).db).needsOnboarding
  {
    var created := Onboarding.CreateTeam(db, user, form, ids, fault).db;
    Onboarding.CreateTouchesOnlyOnboardingTables(db, user, form, ids, fault);
    var joined := Onboarding.JoinTeam(db, user, code, memberId).db;
  }
}

=== FILE: text.dfy ===
/**
 The string handling the form handlers rely on: JavaScript's `trim`,
 `toUpperCase` restricted to ASCII letters, and the `x || null` idiom.
 */
module Text {
  import opened Wrappers

  /** The characters `String.prototype.trim` removes: ECMAScript WhiteSpace and LineTerminator. */
  const Spaces: set<char> := {
    '\t', '\n', '\U{B}', '\U{C}', '\r', ' ', '\U{A0}', '\U{1680}',
    '\U{2000}', '\U{2001}', '\U{2002}', '\U{2003}', '\U{2004}', '\U{2005}', '\U{2006}', '\U{2007}', '\U{2008}', '\U{2009}', '\U{200A}',
    '\U{2028}', '\U{2029}', '\U{202F}', '\U{205F}', '\U{3000}', '\U{FEFF}'
  }

  predicate IsSpace(c: char) {
    c in Spaces
  }

  predicate AllSpace(s: string) {
    forall i :: 0 <= i < |s| ==> IsSpace(s[i])
  }

  /** No white space at either end: what `trim` leaves behind. */
  predicate Bare(s: string) {
    s == [] || (!IsSpace(s[0]) && !IsSpace(s[|s| - 1]))
  }

  /** Drops leading white space. */
  function TrimStart(s: string): (r: string)
    ensures |r| <= |s| && r == s[|s| - |r|..]
    ensures AllSpace(s[..|s| - |r|])
    ensures r == [] || !IsSpace(r[0])
  {
    if s != [] && IsSpace(s[0]) then TrimStart(s[1..]) else s
  }

  /** Drops trailing white space. */
  function TrimEnd(s: string): (r: string)
    ensures |r| <= |s| && r == s[..|r|]
    ensures AllSpace(s[|r|..])
    ensures r == [] || !IsSpace(r[|r| - 1])
  {
    if s != [] && IsSpace(s[|s| - 1]) then TrimEnd(s[..|s| - 1]) else s
  }

  /**
   The front-trimmed suffix `u` of `s`, back-trimmed to its prefix `r`,
   leaves `r` between two runs of white space.
   */
  lemma TrimParts(s: string, u: string, r: string)
    requires |u| <= |s| && u == s[|s| - |u|..] && AllSpace(s[..|s| - |u|])
    requires u == [] || !IsSpace(u[0])
    requires |r| <= |u| && r == u[..|r|] && AllSpace(u[|r|..])
    requires r == [] || !IsSpace(r[|r| - 1])
    ensures Bare(r)
    ensures var k := |s| - |u|;
      && s == s[..k] + r + s[k + |r|..]
      && AllSpace(s[k + |r|..])
  {
    var k := |s| - |u|;
    assert s[k + |r|..] == u[|r|..];
    assert u == r + u[|r|..];
    assert s == s[..k] + u;
    if r != [] {
      assert r[0] == u[0];
    }
  }

  /**
   `String.prototype.trim`: the input is the result padded with white space
   on both sides, and the result has none at either end.
   */
  function Trim(s: string): (r: string)
    ensures Bare(r)
    ensures |r| <= |s|
    ensures var k := |s| - |TrimStart(s)|;
      && k + |r| <= |s|
      && s == s[..k] + r + s[k + |r|..]
      && AllSpace(s[..k]) && AllSpace(s[k + |r|..])
  {
    var u := TrimStart(s);
    var r := TrimEnd(u);
    TrimParts(s, u, r);
    r
  }

  lemma {:induction false} TrimStartPadded(p: string, t: string)
    requires AllSpace(p)
    requires t == [] || !IsSpace(t[0])
    ensures TrimStart(p + t) == t
    decreases |p|
  {
    if p != [] {
      assert (p + t)[1..] == p[1..] + t;
      TrimStartPadded(p[1..], t);
    }
  }

  lemma {:induction false} TrimEndPadded(t: string, q: string)
    requires AllSpace(q)
    requires t == [] || !IsSpace(t[|t| - 1])
    ensures TrimEnd(t + q) == t
    decreases |q|
  {
    if q != [] {
      assert (t + q)[..|t + q| - 1] == t + q[..|q| - 1];
      TrimEndPadded(t, q[..|q| - 1]);
    }
  }

  /**
   The converse of Trim's contract: padding a bare string with white space on
   either side and trimming gives the bare string back.
   */
  lemma TrimOfPadded(p: string, t: string, q: string)
    requires AllSpace(p) && AllSpace(q) && Bare(t)
    ensures Trim(p + t + q) == t
  {
    if t == [] {
      assert p + t + q == p + q;
      TrimStartPadded(p + q, []);
      assert p + q + [] == p + q;
    } else {
      assert p + t + q == p + (t + q);
      TrimStartPadded(p, t + q);
      TrimEndPadded(t, q);
    }
  }

  /** Trimming an already trimmed string changes nothing. */
  lemma TrimIdempotent(s: string)
    ensures Trim(Trim(s)) == Trim(s)
  {
    var t := Trim(s);
    assert [] + t + [] == t;
    TrimOfPadded([], t, []);
  }

  /** `toUpperCase` on one character, ASCII letters only. */
  function UpperChar(c: char): char {
    if 'a' <= c <= 'z' then (c as int - 32) as char else c
  }

  /** No ASCII lower-case letter. */
  predicate IsUpper(s: string) {
    forall i :: 0 <= i < |s| ==> !('a' <= s[i] <= 'z')
  }

  /** `String.prototype.toUpperCase`, ASCII letters only. */
  function ToUpper(s: string): (r: string)
    ensures |r| == |s|
    ensures forall i :: 0 <= i < |s| ==> r[i] == UpperChar(s[i])
  {
    if s == [] then [] else [UpperChar(s[0])] + ToUpper(s[1..])
  }

  lemma ToUpperIsUpper(s: string)
    ensures IsUpper(ToUpper(s))
  {
  }

  lemma ToUpperIdempotent(s: string)
    ensures ToUpper(ToUpper(s)) == ToUpper(s)
  {
    assert forall i :: 0 <= i < |s| ==> ToUpper(ToUpper(s))[i] == ToUpper(s)[i];
  }

  lemma ToUpperAppend(a: string, b: string)
    ensures ToUpper(a + b) == ToUpper(a) + ToUpper(b)
  {
    assert forall i :: 0 <= i < |a + b| ==> ToUpper(a + b)[i] == (ToUpper(a) + ToUpper(b))[i];
  }

  lemma UpperCharKeepsSpace(c: char)
    ensures IsSpace(UpperChar(c)) <==> IsSpace(c)
  {
    if 'a' <= c <= 'z' {
      assert !IsSpace(c) && !IsSpace(UpperChar(c));
    }
  }

  /** Upper-casing neither creates nor removes white space at the ends. */
  lemma ToUpperKeepsSpacing(s: string)
    ensures AllSpace(s) ==> AllSpace(ToUpper(s))
    ensures Bare(ToUpper(s)) <==> Bare(s)
  {
    forall i | 0 <= i < |s|
      ensures IsSpace(ToUpper(s)[i]) <==> IsSpace(s[i])
    {
      UpperCharKeepsSpace(s[i]);
    }
  }

  /** Trimming and upper-casing can be applied in either order. */
  lemma {:induction false} TrimToUpperCommute(s: string)
    ensures Trim(ToUpper(s)) == ToUpper(Trim(s))
  {
    var t := Trim(s);
    var k := |s| - |TrimStart(s)|;
    var p, q := s[..k], s[k + |t|..];
    assert s == p + t + q;
    ToUpperAppend(p, t);
    ToUpperAppend(p + t, q);
    ToUpperKeepsSpacing(p);
    ToUpperKeepsSpacing(q);
    ToUpperKeepsSpacing(t);
    TrimOfPadded(ToUpper(p), ToUpper(t), ToUpper(q));
  }

  /** `x || null` on an optional string: absent and empty both become null. */
  function OrNull(x: Option<string>): (r: Option<string>)
    ensures r.Some? <==> x.Some? && x.value != []
    ensures r.Some? ==> r == x
  {
    if x.Some? && x.value != [] then x else None
  }
}

=== FILE: types.dfy ===
/**
 Record shapes of the attendance core, after src/types/index.ts, and the
 abstract record store that the handlers read and write.
 */
module Types {
  import opened Wrappers

  /** Opaque store identifiers (ids from generateId, `presence_<ms>`, auth user ids). */
  type Id = string

  /** Clock reading stored in `declared_at` and similar fields. */
  type Stamp = int

  /** The three-tier role of index.ts:21. */
  datatype UserRole = SuperAdmin | TeamAdmin | Member

  /** index.ts:124. */
  datatype PresenceStatus = Present | Absent | Late

  /** Minute of the day of an `HH:MM` field. */
  type Minute = m: int | 0 <= m < 1440

  /** A local wall-clock instant at minute resolution: a day number and a minute of that day. */
  datatype Instant = Instant(day: int, minute: Minute)

  /** Strict chronological order of instants: by day, then by minute. */
  predicate Before(x: Instant, y: Instant) {
    x.day < y.day || (x.day == y.day && x.minute < y.minute)
  }

  /** index.ts:85-101; `assignmentDate` is a day number, the times are minutes of that day. */
  datatype Assignment = Assignment(
    id: Id,
    teamId: Id,
    title: string,
    description: Option<string>,
    date: int,
    startTime: Minute,
    endTime: Minute,
    location: Option<string>,
    isRecurring: bool,
    recurrencePattern: Option<string>,
    createdBy: Id)

  /** The instant `${assignment_date}T${start_time}` denotes. */
  function StartOf(a: Assignment): Instant {
    Instant(a.date, a.startTime)
  }

  /** A row of the `presences` collection (PresenceDeclaration, index.ts:126-137). */
  datatype PresenceRow = PresenceRow(
    id: Id,
    assignmentId: Id,
    userId: Id,
    status: PresenceStatus,
    justification: Option<string>,
    declaredBy: Id,
    declaredAt: Stamp,
    adminOverride: bool,
    adminOverrideBy: Option<Id>,
    adminOverrideAt: Option<Stamp>)

  /** The authenticated user as the handlers use it: its id and display name. */
  datatype User = User(id: Id, displayName: string)

  /** A row of `userProfiles`. */
  datatype UserProfile = UserProfile(id: Id, userId: Id)

  /** A row of `organizations`. */
  datatype Organization = Organization(id: Id, name: string, createdBy: Id)

  /** A row of `teams`, shared by onboarding (writer) and session loading (reader). */
  datatype TeamRow = TeamRow(
    id: Id,
    name: string,
    description: Option<string>,
    organizationId: Id,
    invitationCode: string,
    createdBy: Id)

  /** A row of `team_members`, the collection onboarding writes: no active flag. */
  datatype MemberRow = MemberRow(id: Id, teamId: Id, userId: Id, role: UserRole)

  /**
   A row of `teamMemberships`, the collection session loading reads (TeamMember,
   index.ts:33-41). The store keeps the boolean `isActive` as the text "1" or "0".
   */
  datatype TeamMembership = TeamMembership(
    id: Id,
    teamId: Id,
    userId: Id,
    role: UserRole,
    joinedAt: Stamp,
    isActive: string)

  /** A team joined with the current user's role in it (UserTeam, index.ts:43-46). */
  datatype TeamWithRole = TeamWithRole(team: TeamRow, userRole: UserRole)

  /** The record store: one sequence per collection, in insertion order. */
  datatype Db = Db(
    organizations: seq<Organization>,
    teams: seq<TeamRow>,
    teamMembers: seq<MemberRow>,
    teamMemberships: seq<TeamMembership>,
    userProfiles: seq<UserProfile>,
    assignments: seq<Assignment>,
    presences: seq<PresenceRow>)
}

=== FILE: wrappers.dfy ===
/** Optional values: a JavaScript `undefined`/`null` or a `find` that found nothing. */
module Wrappers {

  datatype Option<+T> = None | Some(value: T)
}
